=== FILE: README.md ===
# Phoenix web client: gateway and browser page

Phoenix's web client has two halves. The Java half (`Main.java`) is an embedded HTTP gateway:
- `/api/login` takes a JSON body with `username` and `password` and answers `{"token": …}`.
- `/api/customers` re-exposes the customer CRUD operations to a bearer-token holder.
- Every other path serves the static page from the class path.

The JavaScript half (`app.js`) is that page. It keeps the session token in `authToken` and sends every customer request through `fetchWithAuth`. It also renders the customer table, the edit form and the delete button.

This project models how each half shapes and classifies requests, and proves that the two halves agree:
- the `Authorization` header the page writes is the one the gateway reads;
- the URLs the page builds resolve to the ids they were built from;
- the gateway's error documents reach the page as the messages it shows.

Modules (one file each):
- `Wrappers`: `Option`.
- `Decimal`: decimal text of integers, the text a template literal and `Long.toString` produce.
- `JavaText`: the `String` and `Long` behaviour the gateway relies on:
  - `startsWith`, `lastIndexOf` and ASCII `toUpperCase`/`equalsIgnoreCase`;
  - `split("/")`, with Java's dropping of trailing empty pieces;
  - `Long.parseLong`, with its 64-bit range.
- `Gateway`: `Main.java`:
  - token and id extraction and the content-type table;
  - `sendError`;
  - each handler as a function from the request (and the service layer's answers) to the response and the service call made.
- `JsText`: JSON values as the page sees them, truthiness, member access, `String(v)` and `trim`.
- `WebClient`: `app.js`:
  - the page's token as the class `Session` (`FetchWithAuth`, `Login`, `Logout`);
  - the table as the class `CustomerTable` (`Render`);
  - the form, delete and login requests as functions.
- `Contract`: both halves together.

The service layer (`ApiHttpClient`, `AuthService`, `CustomerService`) is not part of this model. It enters as `Gateway.Upstream`, a record of total functions, each of which returns a value or throws (with a message that may be null). A returned token, customer, customer list or list element may itself be null. A server seen from the page enters as a function from the request to its reply.

Behaviour of the code that the model keeps as written:
- The id of a PUT or DELETE is the fourth piece of `path.split("/")`, so any later segments are ignored (`Gateway.ResolveIdIgnoresLaterSegments`).
- Every failed login is answered 401, a body that does not parse included. Every exception in a customers handler is answered 500, an upstream 401 included.
- A login whose token is null fails inside `Map.of` with a NullPointerException. The gateway answers that with 401 and an empty message.
- The extension is the suffix from the last `.` of the whole path, which may lie in a directory name.
- The page has a logout, which drops the token (app.js:186-190).

## Model

| member | source | states |
|---|---|---|
| Decimal.IntToString | src/main/resources/web/app.js:121 | The text `${id}` writes for an integer id: non-empty; it starts with `-` exactly for negative ids, followed by the digits of the magnitude, with no leading zero |
| Decimal.NatToStringValue | src/main/java/br/com/phoenix/client/Main.java:145 | Reading back the decimal digits of a natural number gives the number |
| Decimal.IntToStringInjective | src/main/resources/web/app.js:121 | Distinct ids give distinct URL texts |
| JavaText.LastIndexOf | src/main/java/br/com/phoenix/client/Main.java:192 | `lastIndexOf('.')`: -1 exactly when there is no dot; otherwise a dot with no dot after it |
| JavaText.ToUpper | src/main/java/br/com/phoenix/client/Main.java:82 | `toUpperCase` keeps the length and maps each ASCII letter to upper case |
| JavaText.ToUpperIdempotent | src/main/java/br/com/phoenix/client/Main.java:82 | Upper-casing an upper-cased method changes nothing |
| JavaText.SplitAll | src/main/java/br/com/phoenix/client/Main.java:140 | Splitting at every separator always yields at least one piece |
| JavaText.SplitAllPieces | src/main/java/br/com/phoenix/client/Main.java:140 | No piece of a split contains the separator |
| JavaText.SplitAllJoin | src/main/java/br/com/phoenix/client/Main.java:140 | Splitting pieces joined by the separator gives the pieces back |
| JavaText.DropTrailingEmpty | src/main/java/br/com/phoenix/client/Main.java:140 | What `split` keeps is a prefix that ends in a non-empty piece; everything it drops is empty |
| JavaText.Split | src/main/java/br/com/phoenix/client/Main.java:140 | `split("/")`: a string without `/` is one piece (so `""` gives `[""]`); otherwise all pieces between slashes, leading empty piece included, with the trailing empty pieces (and only those) removed, so `/` gives no piece at all |
| JavaText.SplitOfJoin | src/main/java/br/com/phoenix/client/Main.java:140 | Any non-empty list of slash-free pieces ending in a non-empty one survives `split` of its join unchanged |
| JavaText.ParseLong | src/main/java/br/com/phoenix/client/Main.java:145-147 | `parseLong` accepts an optional `+` or `-` followed by at least one ASCII digit, with a 64-bit value; only a `-` gives a negative value |
| JavaText.ParseLongOfDecimal | src/main/java/br/com/phoenix/client/Main.java:145 | Parsing an integer's decimal text gives the integer when it fits in 64 bits, and fails otherwise |
| JavaText.ParseLongOfDigits | src/main/java/br/com/phoenix/client/Main.java:145-147 | A digit string parses to its value up to `Long.MAX_VALUE`; `+` changes nothing; `-` reaches down to `Long.MIN_VALUE` |
| JavaText.ParseLongRejects | src/main/java/br/com/phoenix/client/Main.java:144-148 | The empty string, a lone sign and any text with a non-digit (outside a leading sign) are rejected |
| Gateway.ExtractToken | src/main/java/br/com/phoenix/client/Main.java:226-232 | A token exists exactly when the header is present and starts with `Bearer `; the header is then `Bearer ` followed by the token |
| Gateway.ExtractTokenOfBearer | src/main/java/br/com/phoenix/client/Main.java:226-232 | `Bearer t` yields `t`; the prefix is case-sensitive, so `bearer t` yields nothing |
| Gateway.ResolveId | src/main/java/br/com/phoenix/client/Main.java:139-149 | A resolved id is always a 64-bit value |
| Gateway.ResolveIdReadsFourthPiece | src/main/java/br/com/phoenix/client/Main.java:139-149 | The id is the fourth piece between slashes read by `parseLong`, or none when there is no fourth piece; dropping trailing empty pieces never changes the answer |
| Gateway.ResolveIdOfResource | src/main/java/br/com/phoenix/client/Main.java:139-149 | `/api/customers/<seg>` resolves to `parseLong(seg)` for any segment without `/` |
| Gateway.ResolveIdIgnoresLaterSegments | src/main/java/br/com/phoenix/client/Main.java:139-149 | `/api/customers/<seg>/<rest>` resolves the same as `/api/customers/<seg>`, whatever follows |
| Gateway.ResolveIdOfCollection | src/main/java/br/com/phoenix/client/Main.java:139-149 | The collection path `/api/customers` has no id |
| Gateway.ResolveIdOfCollectionSlash | src/main/java/br/com/phoenix/client/Main.java:139-149 | Nor does `/api/customers/` |
| Gateway.ResolveIdOfDecimal | src/main/java/br/com/phoenix/client/Main.java:139-149 | The resource path of any 64-bit id resolves to that id; the decimal text of a wider integer is rejected |
| Gateway.GetExtension | src/main/java/br/com/phoenix/client/Main.java:191-194 | The extension is empty exactly when the path has no dot; otherwise it is the path's suffix starting at a dot with no dot after it |
| Gateway.ExtensionIs | src/main/java/br/com/phoenix/client/Main.java:191-194 | The extension of `stem + ext` is `ext` when `ext` is a dot followed by no dot |
| Gateway.ContentTypeOfExtension | src/main/java/br/com/phoenix/client/Main.java:153-182 | A file ending in `ext` gets the table's type for `ext` (exact key, so `.HTML` is not in it), else the platform's guess, else `application/octet-stream` |
| Gateway.ContentTypeWithoutDot | src/main/java/br/com/phoenix/client/Main.java:179-182 | A path without a dot gets the guess, or `application/octet-stream` |
| Gateway.IndexContentType | src/main/java/br/com/phoenix/client/Main.java:153-179 | `/index.html` is served as `text/html; charset=utf-8` whatever the guess |
| Gateway.SendErrorKeepsMessage | src/main/java/br/com/phoenix/client/Main.java:206-210 | Two error responses are equal exactly when their statuses and their messages are, a null message reading as `""`: the only information `sendError` loses is null versus empty |
| Gateway.LoginReadsCredentials | src/main/java/br/com/phoenix/client/Main.java:50-56 | A login body with scalar `username` and `password` logs in with exactly those texts; a missing, null, object or array member is sent as `""` |
| Gateway.LoginHandle | src/main/java/br/com/phoenix/client/Main.java:44-63 | 405 with no call exactly when the method is not POST in any case. A body that does not parse answers 401 with the mapper's message and calls nothing. A parsed body always calls `login` with its `username` and `password` text. 200 with `{"token": …}` exactly when the service returns a non-null token. A null token answers 401 with `""`, a thrown login 401 with its message |
| Gateway.LoginFailures | src/main/java/br/com/phoenix/client/Main.java:49-62 | A body that does not parse answers 401 with the mapper's message without calling the service; a body without credentials logs in with empty ones; a service exception answers 401 with its message |
| Gateway.HandleGet | src/main/java/br/com/phoenix/client/Main.java:103-106 | Always lists with the request's token; 200 exactly when the list is returned, otherwise 500 with the exception's message |
| Gateway.HandlePost | src/main/java/br/com/phoenix/client/Main.java:108-114 | A create call, with the request's token and the body's name and email, exactly when the body decodes. 201 exactly when the create returns. A body or create exception answers 500 with its message |
| Gateway.HandlePut | src/main/java/br/com/phoenix/client/Main.java:116-127 | 400 with `Invalid customer id` and no call exactly when the id does not resolve. A body exception then answers 500 with its message and calls nothing. Otherwise the update targets the resolved id with the request's token and the body's name and email; 200 exactly when it returns, else 500 with its message |
| Gateway.HandleDelete | src/main/java/br/com/phoenix/client/Main.java:129-137 | 400 with `Invalid customer id` and no call exactly when the id does not resolve; otherwise a delete of the resolved id with the request's token, 204 exactly when it returns, else 500 with its message |
| Gateway.CustomersHandle | src/main/java/br/com/phoenix/client/Main.java:68-93 | No bearer token gives 401 and no call. Every call carries the request's token. 405 (with the `Allow` list) comes back exactly when a token is present and the upper-cased method is not one of the five. 400 exactly for PUT/DELETE with an unresolvable id. Update and delete calls target the path's id. With a token, GET, POST, PUT and DELETE answer exactly as their handlers do (so GET always lists and a decoded POST always creates), and every other method calls nothing |
| Gateway.CustomersMethodCaseInsensitive | src/main/java/br/com/phoenix/client/Main.java:82 | Upper-casing the request's method changes nothing in the answer |
| Gateway.CustomersPathOnlyForPutDelete | src/main/java/br/com/phoenix/client/Main.java:82-88 | GET, POST, OPTIONS and unknown methods answer the same whatever the path |
| Gateway.CustomersSuccess | src/main/java/br/com/phoenix/client/Main.java:82-137 | When everything succeeds: GET answers 200 with the list, POST 201 with the created customer, PUT 200 with the updated one and DELETE 204. OPTIONS answers 204 with the `Allow`/CORS headers and calls nothing |
| Gateway.AuthorisedPutUpdates | src/main/java/br/com/phoenix/client/Main.java:116-125 | A PUT with `Bearer t` to a resolvable path with a decodable body updates that id with token `t` and the body's name and email |
| Gateway.CustomersServiceFailure | src/main/java/br/com/phoenix/client/Main.java:90-92 | An exception from `list`, `create`, `update`, `delete` or the body mapper answers 500 with its message, or `""` for a null one |
| Gateway.StaticHandle | src/main/java/br/com/phoenix/client/Main.java:163-189 | Non-GET gives 405 with `Allow: GET`. GET answers 200 exactly when the resource `web<path>` exists (with `/` read as `/index.html`), and otherwise 404 `Not found`. A 200 carries the resource's bytes and the content type of its path |
| Gateway.StaticRoot | src/main/java/br/com/phoenix/client/Main.java:169-183 | `/` serves `web/index.html` as HTML |
| JsText.TrimStart | src/main/resources/web/app.js:158-159 | Removes a leading run of white space, and only that |
| JsText.TrimEnd | src/main/resources/web/app.js:158-159 | Removes a trailing run of white space, and only that |
| JsText.TrimIsSlice | src/main/resources/web/app.js:158-159 | `trim` returns a slice of its input with only white space cut off either side |
| JsText.TrimOfTrimmed | src/main/resources/web/app.js:158-159 | A string without white space at either end is its own trim and is not blank |
| JsText.TrimEnds | src/main/resources/web/app.js:158-159 | What `trim` returns neither starts nor ends with white space |
| JsText.TrimEmpty | src/main/resources/web/app.js:158-161 | An input trims to `""` exactly when it is all white space |
| WebClient.Lookup | src/main/resources/web/app.js:43 | A found value is a member of the object; a miss means no member has that name |
| WebClient.AssignLookup | src/main/resources/web/app.js:41-44 | After `h[key] = value` every name other than `key` reads as before |
| WebClient.Assign | src/main/resources/web/app.js:41-44 | After `h[key] = value` the key reads as the value; an existing key keeps its place; a new key goes last |
| WebClient.AssignKeepsOthers | src/main/resources/web/app.js:39-45 | Assigning one header leaves every other header as it was |
| WebClient.AssignKeepsDistinct | src/main/resources/web/app.js:39-45 | Assigning keeps header names distinct |
| WebClient.Settle | src/main/resources/web/app.js:47-60 | A reply that is not ok rejects with its failure message. 204 resolves to `null`. Otherwise the promise resolves exactly when the body parses, to the parsed value, and an unparsable body rejects with the engine's parse error |
| WebClient.FailureMessageChoice | src/main/resources/web/app.js:48-55 | A truthy `error` text is the message; an empty one, a body that does not parse, `null` or `{}` give the status text |
| WebClient.SubmitCustomer | src/main/resources/web/app.js:155-175 | The form is refused with the validation alert exactly when name or email is all white space. Otherwise it sends the trimmed name and email, by PUT to `/api/customers/<id>` when the hidden id is set and by POST to `/api/customers` when it is not |
| WebClient.EditResubmitsCustomer | src/main/resources/web/app.js:97-175 | Editing a stored customer and saving it unchanged puts the same name and email to `/api/customers/<id>` |
| WebClient.DeleteTargetsOneCustomer | src/main/resources/web/app.js:115-121 | A declined confirmation sends nothing, and distinct numeric ids are deleted through distinct URLs |
| WebClient.FromEntries | src/main/resources/web/app.js:133 | `Object.fromEntries` gives distinct names; each name of the entries reads as the value of its last entry, and no other name is present |
| WebClient.LoginRequest | src/main/resources/web/app.js:136-140 | The login is a POST to `/api/login` whose only header is the JSON content type (never an `Authorization` header) and whose body is the object `Object.fromEntries` builds from the form |
| WebClient.LoginFailureChoice | src/main/resources/web/app.js:141-143 | A refused login shows the server's truthy `error`, else `Falha no login`, also when the body does not parse |
| WebClient.RowShowsMembers | src/main/resources/web/app.js:76-78 | A numeric id shows as its decimal text, a string member as itself, a `null` member as `null` and a missing one as `undefined` |
| WebClient.FirstNullish | src/main/resources/web/app.js:72-87 | The number of items rendered before a `null` item throws: all items before it are not nullish, the one at it is |
| WebClient.Session.constructor | src/main/resources/web/app.js:12 | The page starts without a token |
| WebClient.Session.FetchWithAuth | src/main/resources/web/app.js:38-61 | The URL, the method (GET by default) and the body are passed on. `Authorization` is `Bearer <token>` when the token is truthy, else the caller's. `Content-Type` is `application/json` when there is a body and the caller set no truthy one, else the caller's. Every other header is the caller's, and header names stay distinct. The result is the reply settled |
| WebClient.Session.Login | src/main/resources/web/app.js:130-153 | Logged in exactly when the reply is ok and parses to a non-null value, and then the token is its `token` member. A failure leaves the token as it was. A reply that is not ok reports the server's error or the fallback text |
| WebClient.Session.Logout | src/main/resources/web/app.js:186-190 | The token is dropped |
| WebClient.CustomerTable.constructor | src/main/resources/web/app.js:9 | The table body starts empty |
| WebClient.CustomerTable.Render | src/main/resources/web/app.js:63-88 | The table is cleared first. A falsy or empty list gives the single placeholder row. An array gives one row per customer, in order, up to the first `null` item, where rendering stops. Any other value throws before a row is added |
| Contract.BearerHeaderRoundTrip | src/main/resources/web/app.js:41 | The header the page writes for a truthy token is parsed by `extractToken` (Main.java:226-232) back to the token's text |
| Contract.DeleteUrlResolves | src/main/resources/web/app.js:121 | The delete URL of any 64-bit id resolves through `resolveId` (Main.java:139-149) to that id |
| Contract.SaveUrlResolves | src/main/resources/web/app.js:174 | Saving an edited customer with a 64-bit id, when the form is accepted, sends a PUT whose URL resolves through `resolveId` to that id |
| Contract.NewCustomerUrl | src/main/resources/web/app.js:168-174 | A form with no hidden id, when accepted, sends a POST to the collection URL, which resolves to no id |
| Contract.GatewayErrorsReachThePage | src/main/resources/web/app.js:47-56 | A gateway error document (Main.java:206-210) rejects the page's request with its message, or with the reason phrase for an empty or null one |
| Contract.NoContentSettlesToNull | src/main/resources/web/app.js:57-59 | The gateway's 204 (Main.java:221-224) settles to `null` |
| Contract.SendPut | src/main/resources/web/app.js:38-46 | A PUT the page sends through the gateway while it holds a token, to a URL that resolves to `n`, reaches the service as an update of `n` authorised with that token. The page then holds the updated customer (or `null`), or a rejection with the service's message, or the reason phrase for an empty one |
| Contract.SaveEditedCustomer | src/main/resources/web/app.js:155-175 | A request is sent exactly when the form is accepted. It reaches the service as an update of that customer's id, authorised with the page's token and carrying the decoded name and email, and the page ends with the update's result or its failure message |
| Contract.RequestWithoutToken | src/main/resources/web/app.js:40-42 | A page without a truthy token, before login or after logout, gets 401 `Missing or invalid Authorization header` from the customers endpoint, which calls nothing. The page's request rejects with that message |
| Contract.LoginThroughGateway | src/main/resources/web/app.js:130-153 | A login the gateway accepts installs the token the service issued. A refused one leaves the token as it was and shows the gateway's message, or `Falha no login` for an empty one |
| Contract.TokenReplyLogsIn | src/main/java/br/com/phoenix/client/Main.java:58-59 | The gateway's token document is an ok reply whose `token` member is the token |
| Contract.ErrorReplyFails | src/main/resources/web/app.js:141-143 | A 401 or 405 error document is not ok, and the login form reports its message or the fallback text |
| Contract.ListAndRender | src/main/resources/web/app.js:105-109 | A null or empty list from the gateway gives the placeholder. Otherwise there is one row per customer, in the service's order, each showing that customer's id, up to the first null element, where rendering stops. It completes exactly when no element is null |

## Left out

- The service layer (`ApiHttpClient`, `AuthService`, `CustomerService`) and the upstream API are not part of this model. Their answers are the parameter `Gateway.Upstream`.
- Jackson's serialization and deserialization are not modelled. A request body enters already decoded (`Gateway.RequestBody`), and a JSON `null` body, which makes the handler throw a NullPointerException, is folded into `Threw`.
- The NullPointerException `Map.of` throws for a null token is modelled with a null message, written as `""`. A JSON `null` body's exception is `Threw` with whatever message the model is given.
- CustomerValue: an assumption, not a proof. The gateway is assumed to write a customer as exactly the three members `id`, `name` and `email`, with a null field as `null`, since Jackson is not part of this model.
- Forward: an assumption about the wire, not a proof. The gateway is assumed to see the page's method, its URL as the decoded path (the page sends absolute paths without a query) and the one `Authorization` value the page set.
- `HttpServer` itself is left out: sockets, worker threads, the `APP_PORT` setting, `main` and its startup message, the chunked writing of bodies and IOExceptions while writing. The context prefix matching that routes a path to a handler is also left out, and each handler is applied to the requests it receives.
- The class-path lookup and `URLConnection.guessContentTypeFromName` are calls outside the model. They enter `Gateway.StaticHandle` as the parameters `lookup` and `guess`.
- `Headers.getFirst` matches header names case-insensitively. The model reads the one `Authorization` value the page set.
- `toUpperCase`, `equalsIgnoreCase` and `trim` are modelled character by character on ASCII case and ECMAScript white space. Locale-sensitive and non-ASCII case mappings are not modelled.
- `Long.parseLong` also accepts non-ASCII Unicode digits. The model accepts ASCII digits only.
- JavaScript numbers are modelled as exact integers. Floating point, and the loss of precision above 2^53, are left out.
- DeleteUrlResolves and SaveUrlResolves hold for every 64-bit id only because numbers are exact here. A browser parses ids above 2^53 to a nearby double, so its URL may name another id; the model does not capture that.
- JavaScript objects keep members in insertion order. The model does not reorder integer-like keys first, and prototype properties are left out.
- The DOM is left out: element lookup, `innerHTML` markup and its (absent) escaping, `showAlert`, `toggleViews`, `resetForm` and the form's `reset`. `confirm` is the parameter `confirmed` of `WebClient.DeleteCustomer`.
- The asynchronous ordering of the handlers is left out: what runs after an `await`, and `loadCustomers` chained after a save, a delete or a login. Likewise a `fetch` that rejects on a network failure, since a server is a total function here.
- The desktop GUI (`MainFrame`, `LoginFrame`) and `AppConfig` are not part of this model.
- WebClient.CustomerTable.Render: the rows are the data each row shows, not HTML. The edit and delete listeners are represented by the customer value each row keeps.

=== FILE: contract.dfy ===
/** The two sides of the embedded gateway taken together: the URLs and the
    `Authorization` header the browser client builds are the ones the gateway
    parses, and what the gateway answers is what the page shows. The JSON
    mapper's encoding of a customer and the HTTP reason phrase enter as
    parameters or as the three-member object below. */
module Contract {
  import opened Wrappers
  import opened Decimal
  import opened JavaText
  import opened JsText
  import G = Gateway
  import W = WebClient

  /** The gateway's view of a request the page sent: the decoded path is the
      URL (the page only sends absolute paths without a query), the first
      `Authorization` value is the one the page set, and `body` is what the
      JSON mapper made of the page's body. */
  function Forward(req: W.Request, body: G.RequestBody): (g: G.Request)
    ensures g.httpMethod == req.verb && g.path == req.url
    ensures g.authorization == W.Lookup(req.headers, "Authorization")
  {
    G.Request(req.verb, req.url, W.Lookup(req.headers, "Authorization"), body)
  }

  /** A nullable Java value as `JSON.parse` reads it back. */
  function NullableText(v: Option<string>): JsValue
  {
    if v.Some? then Str(v.value) else Null
  }

  function NullableNumber(v: Option<int>): JsValue
  {
    if v.Some? then Number(v.value) else Null
  }

  /** A customer written as `{"id", "name", "email"}` and parsed by the page. */
  function CustomerValue(c: G.Customer): (v: JsValue)
    ensures v.Obj? && Member(v, "id") == NullableNumber(c.id)
    ensures Member(v, "name") == NullableText(c.name) && Member(v, "email") == NullableText(c.email)
  {
    Obj(map["id" := NullableNumber(c.id), "name" := NullableText(c.name), "email" := NullableText(c.email)])
  }

  /** A customer reference that may be null, as the page parses it. */
  function NullableCustomer(c: Option<G.Customer>): JsValue
  {
    if c.Some? then CustomerValue(c.value) else Null
  }

  /** A document the gateway writes, as the page parses it. */
  function Wire(json: G.Json): JsValue
  {
    match json
    case ErrorObject(e) => Obj(map["error" := Str(e)])
    case TokenObject(t) => Obj(map["token" := Str(t)])
    case CustomerObject(c) => NullableCustomer(c)
    case CustomerArray(None) => Null
    case CustomerArray(Some(cs)) => Arr(seq(|cs|, i requires 0 <= i < |cs| => NullableCustomer(cs[i])))
  }

  /** The reply the page receives for a gateway response; `reason` is the
      reason phrase the HTTP server writes for each status. */
  function ToReply(resp: G.Response, reason: int -> string): W.Reply
  {
    var body := match resp.body
      case JsonBody(j) => W.Json(Wire(j))
      case _ => W.NotJson;
    W.Reply(resp.status, reason(resp.status), body)
  }

  /** `Authorization: Bearer <authToken>` (app.js) parses back to the token's
      text (Main.java), an empty token excepted since the page sends none. */
  lemma {:induction false} BearerHeaderRoundTrip(token: JsValue)
    requires Truthy(token)
    ensures G.ExtractToken(Some("Bearer " + ToJsString(token))) == Some(ToJsString(token))
    ensures token.Str? ==> G.ExtractToken(Some("Bearer " + ToJsString(token))) == Some(token.s)
  {
    G.ExtractTokenOfBearer(ToJsString(token));
  }

  /** The delete button's URL resolves to the customer's id, for every 64-bit id. */
  lemma {:induction false} DeleteUrlResolves(n: int)
    requires IsLong(n)
    ensures W.DeleteCustomer(Number(n), true).Some?
    ensures G.ResolveId(W.DeleteCustomer(Number(n), true).value.0) == Some(n)
  {
    G.ResolveIdOfDecimal(n);
  }

  /** Saving an edited customer puts to the URL of its id. */
  lemma {:induction false} SaveUrlResolves(customer: JsValue, n: int)
    requires !Nullish(customer) && Member(customer, "id") == Number(n) && IsLong(n)
    ensures W.SubmitCustomer(W.StartEdit(customer)).Save? ==>
      W.SubmitCustomer(W.StartEdit(customer)).options.verb == Some("PUT") &&
      G.ResolveId(W.SubmitCustomer(W.StartEdit(customer)).url) == Some(n)
  {
    var form := W.StartEdit(customer);
    assert form.id == IntToString(n);
    G.ResolveIdOfDecimal(n);
  }

  /** A new customer (empty hidden id) is posted to the collection, whose URL
      carries no id. */
  lemma {:induction false} NewCustomerUrl(form: W.Form)
    requires form.id == ""
    ensures W.SubmitCustomer(form).Save? ==>
      W.SubmitCustomer(form).options.verb == Some("POST") && W.SubmitCustomer(form).url == W.CustomersUrl
    ensures G.ResolveId(W.CustomersUrl) == None
  {
    G.ResolveIdOfCollection();
  }

  /** The gateway's `{"error": message}` reaches the page as the thrown
      message; an empty or null message falls back to the reason phrase. */
  lemma {:induction false} GatewayErrorsReachThePage(status: int, message: Option<string>, reason: int -> string)
    requires !W.Ok(status)
    ensures W.Settle(ToReply(G.SendError(status, message), reason)) ==
      W.Rejected(W.ErrorMessage(if message.GetOr("") != "" then message.value else reason(status)))
  {
  }

  /** A 204 from the gateway settles to `null` without being parsed. */
  lemma {:induction false} NoContentSettlesToNull(headers: map<string, string>, reason: int -> string)
    ensures W.Settle(ToReply(G.NoContent(headers), reason)) == W.Resolved(Null)
  {
  }

  /** The page's requests answered by the customers endpoint of the gateway;
      `decoded` is what the JSON mapper makes of each request's body. */
  function CustomersServer(decoded: G.RequestBody, up: G.Upstream, reason: int -> string): W.Request -> W.Reply
  {
    r => ToReply(G.CustomersHandle(Forward(r, decoded), up).response, reason)
  }

  /** What the page ends with when the gateway answers with the result of an
      update: the customer it returned (or `null`), or the rejection carrying
      the exception's message, or the reason phrase for an empty or null one. */
  function UpdateSettles(u: G.Outcome<Option<G.Customer>>, reason: int -> string): W.Completion
  {
    match u
    case Returned(c) => W.Resolved(NullableCustomer(c))
    case Threw(m) => W.Rejected(W.ErrorMessage(if m.GetOr("") != "" then m.value else reason(500)))
  }

  /** A PUT the page sends while it holds a token, to a URL that resolves to
      `n`, reaches the service as an update of `n` authorised with that token;
      the page then holds the updated customer or the service's failure. */
  method SendPut(session: W.Session, url: string, n: int, options: W.Options, decoded: G.RequestBody,
                 up: G.Upstream, reason: int -> string)
    returns (x: G.Exchange, result: W.Completion)
    requires session.authToken.Str? && session.authToken.s != ""
    requires options.verb == Some("PUT") && G.ResolveId(url) == Some(n)
    requires decoded.asCustomer.Returned?
    ensures x.call == Some(G.UpdateCustomer(session.authToken.s, n, decoded.asCustomer.value.name,
                                            decoded.asCustomer.value.email))
    ensures result == UpdateSettles(up.update(session.authToken.s, n, decoded.asCustomer.value.name,
                                              decoded.asCustomer.value.email), reason)
  {
    var t := session.authToken.s;
    var p := decoded.asCustomer.value;
    var req;
    req, result := session.FetchWithAuth(url, options, CustomersServer(decoded, up, reason));
    assert ToJsString(session.authToken) == t;
    var g := Forward(req, decoded);
    assert g.authorization == Some("Bearer " + t);
    G.AuthorisedPutUpdates(g, up, t, n);
    x := G.CustomersHandle(g, up);
    assert result == W.Settle(ToReply(x.response, reason));
    G.ExtractTokenOfBearer(t);
    ToUpperOfUpper("PUT");
    var u := up.update(t, n, p.name, p.email);
    if u.Threw? {
      GatewayErrorsReachThePage(500, u.message, reason);
    }
  }

  /** Saving an edited customer reaches the gateway as an update of that id,
      authorised with the page's token, and the page ends with the update's
      result; a form the page refuses sends nothing. */
  method SaveEditedCustomer(session: W.Session, customer: JsValue, n: int, decoded: G.RequestBody,
                            up: G.Upstream, reason: int -> string)
    returns (x: Option<G.Exchange>, result: Option<W.Completion>)
    requires session.authToken.Str? && session.authToken.s != ""
    requires !Nullish(customer) && Member(customer, "id") == Number(n) && IsLong(n)
    requires decoded.asCustomer.Returned?
    ensures x.Some? <==> W.SubmitCustomer(W.StartEdit(customer)).Save?
    ensures result.Some? <==> x.Some?
    ensures x.Some? ==> x.value.call == Some(G.UpdateCustomer(session.authToken.s, n, decoded.asCustomer.value.name,
                                                              decoded.asCustomer.value.email))
    ensures result.Some? ==> result.value == UpdateSettles(up.update(session.authToken.s, n, decoded.asCustomer.value.name,
                                                                     decoded.asCustomer.value.email), reason)
  {
    var submission := W.SubmitCustomer(W.StartEdit(customer));
    if submission.Invalid? {
      return None, None;
    }
    SaveUrlResolves(customer, n);
    var sent, settled := SendPut(session, submission.url, n, submission.options, decoded, up, reason);
    x, result := Some(sent), Some(settled);
  }

  /** A page without a truthy token (before login, after logout) gets 401 from
      the customers endpoint, which then calls nothing, and the page's request
      fails with the gateway's message. */
  method RequestWithoutToken(session: W.Session, url: string, options: W.Options, decoded: G.RequestBody,
                             up: G.Upstream, reason: int -> string)
    returns (x: G.Exchange, result: W.Completion)
    requires !Truthy(session.authToken)
    requires W.Lookup(options.headers.GetOr([]), "Authorization") == None
    ensures x == G.Exchange(G.SendError(401, Some(G.MissingToken)), None)
    ensures result == W.Rejected(W.ErrorMessage(G.MissingToken))
  {
    var req;
    req, result := session.FetchWithAuth(url, options, CustomersServer(decoded, up, reason));
    x := G.CustomersHandle(Forward(req, decoded), up);
    assert result == W.Settle(ToReply(x.response, reason));
    GatewayErrorsReachThePage(401, Some(G.MissingToken), reason);
  }

  /** Logging in through the gateway installs the token the service issued;
      a refused login leaves the page's token as it was and shows the
      service's message, or the fallback text for an empty one. */
  method LoginThroughGateway(session: W.Session, entries: W.Members, decoded: G.RequestBody,
                             up: G.Upstream, reason: int -> string)
    returns (outcome: W.LoginOutcome)
    modifies session
    ensures var g := G.LoginHandle(Forward(W.LoginRequest(entries), decoded), up);
      g.response.status == 200 ==>
        outcome == W.LoggedIn && session.authToken == Str(g.response.body.json.token)
    ensures var g := G.LoginHandle(Forward(W.LoginRequest(entries), decoded), up);
      g.response.status != 200 ==>
        session.authToken == old(session.authToken) &&
        outcome == W.LoginFailed(W.ErrorMessage(if g.response.body.json.error != "" then g.response.body.json.error
                                                else W.LoginFailedAlert))
  {
    var g := G.LoginHandle(Forward(W.LoginRequest(entries), decoded), up);
    var server := (r: W.Request) => ToReply(G.LoginHandle(Forward(r, decoded), up).response, reason);
    var req;
    req, outcome := session.Login(entries, server);
    assert server(req) == ToReply(g.response, reason);
    if g.response.status == 200 {
      TokenReplyLogsIn(g.response.body.json.token, reason);
    } else {
      ErrorReplyFails(g.response, reason);
    }
  }

  /** The gateway's token document is an ok reply whose `token` member is the token. */
  lemma {:induction false} TokenReplyLogsIn(token: string, reason: int -> string)
    ensures var reply := ToReply(G.SendJson(200, G.TokenObject(token)), reason);
      W.Ok(reply.status) && reply.body == W.Json(Obj(map["token" := Str(token)]))
  {
  }

  /** A refused login's error document reaches the form as its message, or
      as the fallback text when the message is empty. */
  lemma {:induction false} ErrorReplyFails(resp: G.Response, reason: int -> string)
    requires resp.status in {401, 405} && resp.body.JsonBody? && resp.body.json.ErrorObject?
    ensures !W.Ok(ToReply(resp, reason).status)
    ensures W.LoginFailure(ToReply(resp, reason)) ==
      W.ErrorMessage(if resp.body.json.error != "" then resp.body.json.error else W.LoginFailedAlert)
  {
    W.LoginFailureChoice(resp.status, reason(resp.status), resp.body.json.error);
  }

  /** Listing through the gateway fills the table with one row per customer,
      in the service's order, up to the first null element, where rendering
      stops; a null or empty list gets the placeholder. */
  method ListAndRender(table: W.CustomerTable, customers: Option<seq<Option<G.Customer>>>) returns (completed: bool)
    modifies table
    ensures customers.None? || customers == Some([]) ==> table.rows == [W.Placeholder] && completed
    ensures customers.Some? && customers.value != [] ==>
      var cs := customers.value;
      && |table.rows| <= |cs|
      && (forall i :: 0 <= i < |table.rows| ==>
            cs[i].Some? &&
            table.rows[i] == W.RowFor(CustomerValue(cs[i].value)) &&
            table.rows[i].id == ToJsString(NullableNumber(cs[i].value.id)))
      && (|table.rows| < |cs| ==> cs[|table.rows|].None?)
      && (completed <==> |table.rows| == |cs|)
  {
    var v := Wire(G.CustomerArray(customers));
    completed := table.Render(v);
    if customers.Some? && customers.value != [] {
      var cs := customers.value;
      forall i | 0 <= i < |cs|
        ensures v.items[i] == NullableCustomer(cs[i])
        ensures Nullish(v.items[i]) <==> cs[i].None?
      {
      }
    }
  }
}

=== FILE: decimal.dfy ===
/** Decimal numerals: the text that Java's `Long.toString` and a JavaScript
    template literal produce for an integer, and the value of a digit string. */
module Decimal {

  predicate IsDigit(c: char)
  {
    '0' <= c <= '9'
  }

  predicate AllDigits(ds: string)
  {
    forall i :: 0 <= i < |ds| ==> IsDigit(ds[i])
  }

  function DigitValue(c: char): (d: nat)
    requires IsDigit(c)
    ensures d < 10
  {
    c as int - '0' as int
  }

  function DigitChar(d: nat): (c: char)
    requires d < 10
    ensures IsDigit(c) && DigitValue(c) == d
  {
    ('0' as int + d) as char
  }

  /** The value of a string of decimal digits, most significant first. */
  function DecimalValue(ds: string): nat
    requires AllDigits(ds)
  {
    if ds == [] then 0 else DecimalValue(ds[..|ds| - 1]) * 10 + DigitValue(ds[|ds| - 1])
  }

  /** The shortest digit string of a natural number. */
  function NatToString(n: nat): (ds: string)
    ensures ds != [] && AllDigits(ds)
    ensures n > 0 ==> ds[0] != '0'
  {
    if n < 10 then [DigitChar(n)] else NatToString(n / 10) + [DigitChar(n % 10)]
  }

  /** Decimal text of an integer: a `-` before the digits of a negative number. */
  function IntToString(n: int): (s: string)
    ensures s != []
    ensures s[0] == '-' <==> n < 0
    ensures n < 0 ==> s[1..] == NatToString(-n)
    ensures n >= 0 ==> s == NatToString(n)
    ensures n > 0 ==> s[0] != '0'
    ensures n < 0 ==> |s| >= 2 && s[1] != '0'
  {
    if n < 0 then "-" + NatToString(-n) else NatToString(n)
  }

  /** Reading back the digits of `NatToString(n)` gives `n`. */
  lemma {:induction false} NatToStringValue(n: nat)
    ensures DecimalValue(NatToString(n)) == n
  {
    var ds := NatToString(n);
    if n >= 10 {
      NatToStringValue(n / 10);
      assert ds[..|ds| - 1] == NatToString(n / 10);
    }
  }

  /** Distinct integers have distinct decimal texts. */
  lemma {:induction false} IntToStringInjective(m: int, n: int)
    requires IntToString(m) == IntToString(n)
    ensures m == n
  {
    if m < 0 {
      assert IntToString(m)[1..] == IntToString(n)[1..];
      NatToStringValue(-m);
      NatToStringValue(-n);
    } else {
      NatToStringValue(m);
      NatToStringValue(n);
    }
  }
}

=== FILE: gateway.dfy ===
/** The embedded HTTP gateway: how it reads the `Authorization` header and the
    customer id in the path, how each handler turns a request into a status
    code, headers and a body, and which service call it makes on the way. The
    service layer itself is not part of this model; it enters as `Upstream`, a
    record of total functions whose answers the handlers pass on. */
module Gateway {
  import opened Wrappers
  import opened Decimal
  import opened JavaText

  /** A customer as the service layer and the JSON mapper see it; every field may be null. */
  datatype Customer = Customer(id: Option<int>, name: Option<string>, email: Option<string>)

  /** What a call into code outside the model gave back: a value, or an
      exception with its message (`getMessage()` may be null). */
  datatype Outcome<+T> = Returned(value: T) | Threw(message: Option<string>)

  /** A call into the service layer. The customer calls carry the token their
      `CustomerService` was built with. */
  datatype Call =
    | Login(username: string, password: string)
    | ListCustomers(token: string)
    | CreateCustomer(token: string, name: Option<string>, email: Option<string>)
    | UpdateCustomer(token: string, id: int, name: Option<string>, email: Option<string>)
    | DeleteCustomer(token: string, id: int)
  {
    /** The bearer token the call is authorised with; a login carries none. */
    function Token(): Option<string>
    {
      if Login? then None else Some(token)
    }
  }

  /** The service layer's answers: `AuthService.login` (whose token may be
      null) and the four `CustomerService` operations. A list, a customer or
      an element of a list may each be null (`None`). */
  datatype Upstream = Upstream(
    login: (string, string) -> Outcome<Option<string>>,
    list: string -> Outcome<Option<seq<Option<Customer>>>>,
    create: (string, Option<string>, Option<string>) -> Outcome<Option<Customer>>,
    update: (string, int, Option<string>, Option<string>) -> Outcome<Option<Customer>>,
    delete: (string, int) -> Outcome<()>)

  /** A member of a JSON object read as a tree: missing, `null`, a scalar
      (its text), or an object or array. */
  datatype Field = Absent | NullField | Scalar(text: string) | Container

  /** The request body as the JSON mapper reads it: as an object tree (login)
      and as a `Customer` (create and update). A body that does not decode,
      or decodes to `null`, is a `Threw`. */
  datatype RequestBody = RequestBody(asObject: Outcome<map<string, Field>>, asCustomer: Outcome<Customer>)

  /** What a handler reads from an exchange: the method, the decoded path, the
      first `Authorization` header value and the body. */
  datatype Request = Request(httpMethod: string, path: string, authorization: Option<string>, body: RequestBody)

  /** The JSON documents the gateway writes; the mapper writes a null
      customer, list or element as `null`. */
  datatype Json =
    | ErrorObject(error: string)
    | TokenObject(token: string)
    | CustomerObject(customer: Option<Customer>)
    | CustomerArray(customers: Option<seq<Option<Customer>>>)

  datatype Body = Empty | JsonBody(json: Json) | Bytes(bytes: seq<bv8>)

  datatype Response = Response(status: int, headers: map<string, string>, body: Body)

  /** A handled request: the response and the service call made, if any. */
  datatype Exchange = Exchange(response: Response, call: Option<Call>)

  const BearerPrefix := "Bearer "
  const JsonContentType := "application/json; charset=utf-8"
  const OctetStream := "application/octet-stream"
  const CustomerMethods := "GET, POST, PUT, DELETE, OPTIONS"
  const CorsAllowHeaders := "Content-Type, Authorization"
  const MissingToken := "Missing or invalid Authorization header"
  const InvalidId := "Invalid customer id"
  const NotAllowed := "Method not allowed"
  const NotFound := "Not found"

  /** The static handler's table of content types, keyed by extension. */
  const MimeTypes: map<string, string> := map[
    ".html" := "text/html; charset=utf-8",
    ".js" := "application/javascript; charset=utf-8",
    ".css" := "text/css; charset=utf-8",
    ".json" := "application/json; charset=utf-8"]

  // ---------------------------------------------------------------------
  // Reading the request

  /** `extractToken`: the text after `Bearer ` (case-sensitive, space
      included), or `None` when the header is absent or has another form. */
  function ExtractToken(header: Option<string>): (token: Option<string>)
    ensures token.Some? <==> header.Some? && StartsWith(header.value, BearerPrefix)
    ensures token.Some? ==> header.value == BearerPrefix + token.value
  {
    if header.None? || !StartsWith(header.value, BearerPrefix) then None
    else
      assert header.value == header.value[..7] + header.value[7..];
      Some(header.value[7..])
  }

  /** The header `fetchWithAuth` writes carries its token back out. */
  lemma {:induction false} ExtractTokenOfBearer(t: string)
    ensures ExtractToken(Some(BearerPrefix + t)) == Some(t)
    ensures ExtractToken(Some("bearer " + t)) == None
  {
    assert (BearerPrefix + t)[..7] == BearerPrefix;
    assert ("bearer " + t)[..7] != BearerPrefix by {
      assert ("bearer " + t)[0] == 'b';
    }
  }

  /** `resolveId`: the fourth piece of `path.split("/")` read by
      `Long.parseLong`, or `None` when there are fewer than four pieces or the
      piece is not a 64-bit decimal. */
  function ResolveId(path: string): (id: Option<int>)
    ensures id.Some? ==> IsLong(id.value)
  {
    var parts := Split(path, '/');
    if |parts| < 4 then None else ParseLong(parts[3])
  }

  /** Dropping trailing empty pieces never changes the answer: the id is
      always the fourth piece between slashes, or absent. */
  lemma {:induction false} ResolveIdReadsFourthPiece(path: string)
    ensures ResolveId(path) ==
      if |SplitAll(path, '/')| >= 4 then ParseLong(SplitAll(path, '/')[3]) else None
  {
    var all := SplitAll(path, '/');
    var parts := Split(path, '/');
    if '/' in path && |all| >= 4 && |parts| < 4 {
      assert all[3] == "";
      assert ParseLong("") == None;
    }
  }

  /** The resource path's last fixed segment. */
  lemma {:induction false} SplitCustomersSegment(rest: string)
    ensures SplitAll("customers/" + rest, '/') == ["customers"] + SplitAll(rest, '/')
  {
    var p := "customers/" + rest;
    assert p[..9] == "customers" && p[10..] == rest;
    SplitAllAt(p, '/', 9);
  }

  /** The resource path's first segment. */
  lemma {:induction false} SplitApiSegment(rest: string)
    ensures SplitAll("api/customers/" + rest, '/') == ["api"] + SplitAll("customers/" + rest, '/')
  {
    var p := "api/customers/" + rest;
    assert p[..3] == "api" && p[4..] == "customers/" + rest;
    SplitAllAt(p, '/', 3);
  }

  /** The resource path's leading slash, which opens an empty piece. */
  lemma {:induction false} SplitLeadingSlash(rest: string)
    ensures SplitAll("/api/customers/" + rest, '/') == [""] + SplitAll("api/customers/" + rest, '/')
  {
    var p := "/api/customers/" + rest;
    assert p[..0] == "" && p[1..] == "api/customers/" + rest;
    SplitAllAt(p, '/', 0);
  }

  /** The pieces of a path below `/api/customers/`. */
  lemma {:induction false} SplitCustomerPath(rest: string)
    ensures SplitAll("/api/customers/" + rest, '/') == ["", "api", "customers"] + SplitAll(rest, '/')
  {
    SplitCustomersSegment(rest);
    SplitApiSegment(rest);
    SplitLeadingSlash(rest);
  }

  /** The URL the client builds for one customer resolves to the id it was
      built from: `resolveId("/api/customers/" + seg) == parseLong(seg)`. */
  lemma {:induction false} ResolveIdOfResource(seg: string)
    requires '/' !in seg
    ensures ResolveId("/api/customers/" + seg) == ParseLong(seg)
  {
    SplitCustomerPath(seg);
    ResolveIdReadsFourthPiece("/api/customers/" + seg);
  }

  /** Segments after the id are ignored. */
  lemma {:induction false} ResolveIdIgnoresLaterSegments(seg: string, rest: string)
    requires '/' !in seg
    ensures ResolveId("/api/customers/" + seg + "/" + rest) == ParseLong(seg)
  {
    assert "/api/customers/" + seg + "/" + rest == "/api/customers/" + (seg + "/" + rest);
    SplitCustomerPath(seg + "/" + rest);
    SplitAllCons(seg, '/', rest);
    ResolveIdReadsFourthPiece("/api/customers/" + seg + "/" + rest);
  }

  /** The pieces of the collection path. */
  lemma {:induction false} SplitCollectionPath()
    ensures SplitAll("/api/customers", '/') == ["", "api", "customers"]
  {
    var parts := ["", "api", "customers"];
    assert parts[1..] == ["api", "customers"];
    assert parts[1..][1..] == ["customers"];
    assert Join(["api", "customers"], '/') == "api/customers";
    assert Join(parts, '/') == "/api/customers";
    SplitAllJoin(parts, '/');
  }

  /** The collection path has no id. */
  lemma {:induction false} ResolveIdOfCollection()
    ensures ResolveId("/api/customers") == None
  {
    SplitCollectionPath();
    ResolveIdReadsFourthPiece("/api/customers");
  }

  /** Nor does the collection path with a trailing slash: its fourth piece is empty. */
  lemma {:induction false} ResolveIdOfCollectionSlash()
    ensures ResolveId("/api/customers/") == None
  {
    SplitCustomerPath("");
    assert "/api/customers/" + "" == "/api/customers/";
    assert SplitAll("", '/') == [""];
    ResolveIdReadsFourthPiece("/api/customers/");
  }

  /** Every 64-bit id round-trips through the resource URL; a decimal outside
      64 bits is rejected. */
  lemma {:induction false} ResolveIdOfDecimal(n: int)
    ensures ResolveId("/api/customers/" + IntToString(n)) == if IsLong(n) then Some(n) else None
  {
    var s := IntToString(n);
    assert '/' !in s by {
      if n < 0 { assert s == "-" + NatToString(-n); } 
    }
    ResolveIdOfResource(s);
    ParseLongOfDecimal(n);
  }

  /** `getExtension`: the suffix from the last `.` of the whole path (which may
      lie in a directory segment), or `""`. */
  function GetExtension(path: string): (ext: string)
    ensures ext != "" <==> '.' in path
    ensures ext != "" ==> ext[0] == '.' && '.' !in ext[1..]
    ensures |ext| <= |path| && ext == path[|path| - |ext|..]
  {
    var idx := LastIndexOf(path, '.');
    if idx >= 0 then path[idx..] else ""
  }

  /** The content type of a served file: the table by exact extension, then
      the platform's guess, then `application/octet-stream`. */
  function ContentType(path: string, guess: Option<string>): string
  {
    var ext := GetExtension(path);
    if ext in MimeTypes then MimeTypes[ext] else guess.GetOr(OctetStream)
  }

  /** A file whose name ends in `ext` gets the table's type for `ext` when
      there is one, whatever the guess; otherwise the guess, then the
      octet-stream default. Keys are compared exactly, so `.HTML` is not
      `.html`, and a dot in a directory name (`/v1.0/readme`) yields an
      extension such as `.0/readme` that is never in the table. */
  lemma {:induction false} ContentTypeOfExtension(stem: string, ext: string, guess: Option<string>)
    requires ext != [] && ext[0] == '.' && '.' !in ext[1..]
    ensures ContentType(stem + ext, guess) ==
      if ext in MimeTypes then MimeTypes[ext] else guess.GetOr(OctetStream)
  {
    ExtensionIs(stem, ext);
  }

  /** Without a dot the guess decides. */
  lemma {:induction false} ContentTypeWithoutDot(path: string, guess: Option<string>)
    requires '.' !in path
    ensures ContentType(path, guess) == guess.GetOr(OctetStream)
  {
  }

  /** The extension of `stem + ext` is `ext` when `ext` is a dot followed by no dot. */
  lemma {:induction false} ExtensionIs(stem: string, ext: string)
    requires ext != [] && ext[0] == '.' && '.' !in ext[1..]
    ensures GetExtension(stem + ext) == ext
  {
    var path := stem + ext;
    assert path[|stem|] == '.';
    assert path[|stem| + 1..] == ext[1..];
    assert LastIndexOf(path, '.') == |stem|;
  }

  // ---------------------------------------------------------------------
  // Writing the response

  /** `sendJson`: the status, the JSON content type and the document. */
  function SendJson(status: int, json: Json): Response
  {
    Response(status, map["Content-Type" := JsonContentType], JsonBody(json))
  }

  /** `sendError`: `{"error": message}` with a null message written as `""`. */
  function SendError(status: int, message: Option<string>): (r: Response)
    ensures r.status == status && r.headers == map["Content-Type" := JsonContentType]
    ensures r.body.JsonBody? && r.body.json.ErrorObject?
    ensures message.Some? ==> r.body.json.error == message.value
    ensures message.None? ==> r.body.json.error == ""
  {
    SendJson(status, ErrorObject(message.GetOr("")))
  }

  /** Two error responses are equal exactly when their statuses are, and their
      messages are once a null message is read as `""`: a client cannot tell a
      null message from an empty one, and nothing else is lost. */
  lemma {:induction false} SendErrorKeepsMessage(s1: int, m1: Option<string>, s2: int, m2: Option<string>)
    ensures SendError(s1, m1) == SendError(s2, m2) <==> s1 == s2 && m1.GetOr("") == m2.GetOr("")
  {
    if SendError(s1, m1) == SendError(s2, m2) {
      assert SendError(s1, m1).body.json.error == SendError(s2, m2).body.json.error;
    }
  }

  /** `sendMethodNotAllowed`: 405 with the `Allow` header. */
  function MethodNotAllowed(allowed: string): Response
  {
    Response(405, map["Allow" := allowed, "Content-Type" := JsonContentType], JsonBody(ErrorObject(NotAllowed)))
  }

  /** `sendNoContent`: 204, no body, and whatever headers were set before. */
  function NoContent(headers: map<string, string>): Response
  {
    Response(204, headers, Empty)
  }

  // ---------------------------------------------------------------------
  // Login

  /** `node.path(key).asText("")`: a missing or null member reads as `""`, a
      scalar as its text, an object or array as `""`. */
  function AsText(fields: map<string, Field>, key: string): (text: string)
    ensures key !in fields ==> text == ""
    ensures key in fields && fields[key].Scalar? ==> text == fields[key].text
    ensures key in fields && !fields[key].Scalar? ==> text == ""
  {
    if key !in fields then "" else
    match fields[key]
    case Scalar(t) => t
    case _ => ""
  }

  /** `LoginHandler.handle`. */
  function LoginHandle(req: Request, up: Upstream): (x: Exchange)
    ensures !EqualsIgnoreCase(req.httpMethod, "POST") ==> x == Exchange(MethodNotAllowed("POST"), None)
    ensures x.response.status in {200, 401, 405}
    ensures x.call.Some? ==> (req.body.asObject.Returned? &&
      x.call.value == Login(AsText(req.body.asObject.value, "username"), AsText(req.body.asObject.value, "password")))
    ensures x.response.status == 200 <==>
      EqualsIgnoreCase(req.httpMethod, "POST") && x.call.Some? &&
      up.login(x.call.value.username, x.call.value.password).Returned? &&
      up.login(x.call.value.username, x.call.value.password).value.Some?
    ensures x.response.status == 200 ==>
      x.response == SendJson(200, TokenObject(up.login(x.call.value.username, x.call.value.password).value.value))
    ensures x.response.status != 200 ==> x.response.body.JsonBody? && x.response.body.json.ErrorObject?
    ensures EqualsIgnoreCase(req.httpMethod, "POST") ==> x.response.status != 405
    ensures EqualsIgnoreCase(req.httpMethod, "POST") && req.body.asObject.Threw? ==>
      x == Exchange(SendError(401, req.body.asObject.message), None)
    ensures EqualsIgnoreCase(req.httpMethod, "POST") && req.body.asObject.Returned? ==>
      x.call == Some(Login(AsText(req.body.asObject.value, "username"), AsText(req.body.asObject.value, "password")))
    ensures x.call.Some? && up.login(x.call.value.username, x.call.value.password) == Returned(None) ==>
      x.response == SendError(401, None)
    ensures x.call.Some? && up.login(x.call.value.username, x.call.value.password).Threw? ==>
      x.response == SendError(401, up.login(x.call.value.username, x.call.value.password).message)
  {
    if !EqualsIgnoreCase(req.httpMethod, "POST") then Exchange(MethodNotAllowed("POST"), None)
    else match req.body.asObject
      case Threw(m) => Exchange(SendError(401, m), None)
      case Returned(fields) =>
        var username := AsText(fields, "username");
        var password := AsText(fields, "password");
        var call := Login(username, password);
        match up.login(username, password)
        case Threw(m) => Exchange(SendError(401, m), Some(call))
        // `Map.of("token", null)` throws a NullPointerException without a message
        case Returned(None) => Exchange(SendError(401, None), Some(call))
        case Returned(Some(token)) => Exchange(SendJson(200, TokenObject(token)), Some(call))
  }

  /** The credentials a login sends on: scalar members as their text; a
      missing, null, object or array member as `""`. */
  lemma {:induction false} LoginReadsCredentials(req: Request, up: Upstream, u: string, p: string)
    requires EqualsIgnoreCase(req.httpMethod, "POST") && req.body.asObject.Returned?
    ensures var f := req.body.asObject.value;
      "username" in f && f["username"] == Scalar(u) && "password" in f && f["password"] == Scalar(p) ==>
        LoginHandle(req, up).call == Some(Login(u, p))
    ensures var f := req.body.asObject.value;
      "username" !in f || !f["username"].Scalar? ==> LoginHandle(req, up).call.value.username == ""
    ensures var f := req.body.asObject.value;
      "password" !in f || !f["password"].Scalar? ==> LoginHandle(req, up).call.value.password == ""
  {
  }

  /** Every failure of a login request, a malformed body included, answers 401
      with the exception's message or `""`, and a body without the credential
      members logs in with empty ones. */
  lemma {:induction false} LoginFailures(req: Request, up: Upstream)
    requires EqualsIgnoreCase(req.httpMethod, "POST")
    ensures req.body.asObject.Threw? ==>
      LoginHandle(req, up) == Exchange(SendError(401, req.body.asObject.message), None)
    ensures req.body.asObject.Returned? && "username" !in req.body.asObject.value && "password" !in req.body.asObject.value ==>
      LoginHandle(req, up).call == Some(Login("", ""))
    ensures LoginHandle(req, up).call.Some? && up.login(LoginHandle(req, up).call.value.username, LoginHandle(req, up).call.value.password).Threw? ==>
      LoginHandle(req, up).response ==
        SendError(401, up.login(LoginHandle(req, up).call.value.username, LoginHandle(req, up).call.value.password).message)
  {
  }

  // ---------------------------------------------------------------------
  // Customers

  /** The methods the customers handler dispatches on, after `toUpperCase`. */
  const CustomerVerbs: set<string> := {"GET", "POST", "PUT", "DELETE", "OPTIONS"}

  /** The headers `handleOptions` sets. */
  const OptionsHeaders: map<string, string> := map[
    "Allow" := CustomerMethods,
    "Access-Control-Allow-Methods" := CustomerMethods,
    "Access-Control-Allow-Headers" := CorsAllowHeaders]

  /** `handleGet`. */
  function HandleGet(token: string, up: Upstream): (x: Exchange)
    ensures x.call == Some(ListCustomers(token))
    ensures x.response.status in {200, 500}
    ensures x.response.status == 200 <==> up.list(token).Returned?
    ensures up.list(token).Threw? ==> x.response == SendError(500, up.list(token).message)
  {
    var call := ListCustomers(token);
    match up.list(token)
    case Threw(m) => Exchange(SendError(500, m), Some(call))
    case Returned(cs) => Exchange(SendJson(200, CustomerArray(cs)), Some(call))
  }

  /** `handlePost`: the body is decoded, then the customer created. */
  function HandlePost(token: string, body: RequestBody, up: Upstream): (x: Exchange)
    ensures x.call.Some? <==> body.asCustomer.Returned?
    ensures x.call.Some? ==>
      x.call == Some(CreateCustomer(token, body.asCustomer.value.name, body.asCustomer.value.email))
    ensures x.response.status in {201, 500}
    ensures x.response.status == 201 <==>
      body.asCustomer.Returned? && up.create(token, body.asCustomer.value.name, body.asCustomer.value.email).Returned?
    ensures body.asCustomer.Threw? ==> x.response == SendError(500, body.asCustomer.message)
    ensures body.asCustomer.Returned? && up.create(token, body.asCustomer.value.name, body.asCustomer.value.email).Threw? ==>
      x.response == SendError(500, up.create(token, body.asCustomer.value.name, body.asCustomer.value.email).message)
  {
    match body.asCustomer
    case Threw(m) => Exchange(SendError(500, m), None)
    case Returned(p) =>
      var call := CreateCustomer(token, p.name, p.email);
      match up.create(token, p.name, p.email)
      case Threw(m) => Exchange(SendError(500, m), Some(call))
      case Returned(c) => Exchange(SendJson(201, CustomerObject(c)), Some(call))
  }

  /** `handlePut`: the id is resolved before the body is read. */
  function HandlePut(token: string, path: string, body: RequestBody, up: Upstream): (x: Exchange)
    ensures x.response.status in {200, 400, 500}
    ensures x.response.status == 400 <==> ResolveId(path).None?
    ensures x.response.status == 400 ==> x == Exchange(SendError(400, Some(InvalidId)), None)
    ensures x.call.Some? ==>
      x.call.value.UpdateCustomer? && x.call.value.token == token && ResolveId(path) == Some(x.call.value.id)
    ensures x.call.Some? <==> ResolveId(path).Some? && body.asCustomer.Returned?
    ensures ResolveId(path).Some? && body.asCustomer.Threw? ==>
      x == Exchange(SendError(500, body.asCustomer.message), None)
    ensures x.call.Some? ==>
      var u := up.update(token, x.call.value.id, body.asCustomer.value.name, body.asCustomer.value.email);
      && x.call.value.name == body.asCustomer.value.name && x.call.value.email == body.asCustomer.value.email
      && (x.response.status == 200 <==> u.Returned?)
      && (u.Threw? ==> x.response == SendError(500, u.message))
  {
    match ResolveId(path)
    case None => Exchange(SendError(400, Some(InvalidId)), None)
    case Some(id) =>
      match body.asCustomer
      case Threw(m) => Exchange(SendError(500, m), None)
      case Returned(p) =>
        var call := UpdateCustomer(token, id, p.name, p.email);
        match up.update(token, id, p.name, p.email)
        case Threw(m) => Exchange(SendError(500, m), Some(call))
        case Returned(c) => Exchange(SendJson(200, CustomerObject(c)), Some(call))
  }

  /** `handleDelete`. */
  function HandleDelete(token: string, path: string, up: Upstream): (x: Exchange)
    ensures x.response.status in {204, 400, 500}
    ensures x.response.status == 400 <==> ResolveId(path).None?
    ensures x.response.status == 400 ==> x == Exchange(SendError(400, Some(InvalidId)), None)
    ensures x.call.Some? ==>
      x.call.value.DeleteCustomer? && x.call.value.token == token && ResolveId(path) == Some(x.call.value.id)
    ensures x.call.Some? <==> ResolveId(path).Some?
    ensures x.call.Some? ==>
      var d := up.delete(token, x.call.value.id);
      && (x.response.status == 204 <==> d.Returned?)
      && (d.Threw? ==> x.response == SendError(500, d.message))
  {
    match ResolveId(path)
    case None => Exchange(SendError(400, Some(InvalidId)), None)
    case Some(id) =>
      var call := DeleteCustomer(token, id);
      match up.delete(token, id)
      case Threw(m) => Exchange(SendError(500, m), Some(call))
      case Returned(_) => Exchange(NoContent(map[]), Some(call))
  }

  /** `CustomersHandler.handle`: the bearer token is checked first, then the
      upper-cased method picks the operation. */
  function CustomersHandle(req: Request, up: Upstream): (x: Exchange)
    ensures ExtractToken(req.authorization).None? ==>
      x == Exchange(SendError(401, Some(MissingToken)), None)
    ensures x.call.Some? ==> x.call.value.Token() == ExtractToken(req.authorization)
    ensures x.response.status in {200, 201, 204, 400, 401, 405, 500}
    ensures x.response.status == 405 <==>
      ExtractToken(req.authorization).Some? && ToUpper(req.httpMethod) !in CustomerVerbs
    ensures x.response.status == 405 ==> x == Exchange(MethodNotAllowed(CustomerMethods), None)
    ensures x.response.status == 400 <==>
      ExtractToken(req.authorization).Some? && ToUpper(req.httpMethod) in {"PUT", "DELETE"} && ResolveId(req.path).None?
    ensures x.response.status == 400 ==> x == Exchange(SendError(400, Some(InvalidId)), None)
    ensures x.call.Some? && (x.call.value.UpdateCustomer? || x.call.value.DeleteCustomer?) ==>
      ResolveId(req.path) == Some(x.call.value.id)
    ensures ExtractToken(req.authorization).Some? ==>
      var t := ExtractToken(req.authorization).value;
      var verb := ToUpper(req.httpMethod);
      && (verb == "GET" ==> x == HandleGet(t, up))
      && (verb == "POST" ==> x == HandlePost(t, req.body, up))
      && (verb == "PUT" ==> x == HandlePut(t, req.path, req.body, up))
      && (verb == "DELETE" ==> x == HandleDelete(t, req.path, up))
      && (verb !in {"GET", "POST", "PUT", "DELETE"} ==> x.call == None)
  {
    var token := ExtractToken(req.authorization);
    if token.None? then Exchange(SendError(401, Some(MissingToken)), None)
    else
      var t := token.value;
      var verb := ToUpper(req.httpMethod);
      if verb == "GET" then HandleGet(t, up)
      else if verb == "POST" then HandlePost(t, req.body, up)
      else if verb == "PUT" then HandlePut(t, req.path, req.body, up)
      else if verb == "DELETE" then HandleDelete(t, req.path, up)
      else if verb == "OPTIONS" then Exchange(NoContent(OptionsHeaders), None)
      else Exchange(MethodNotAllowed(CustomerMethods), None)
  }

  /** Dispatch is case-insensitive: the request's method may be upper-cased
      without changing anything. */
  lemma {:induction false} CustomersMethodCaseInsensitive(req: Request, up: Upstream)
    ensures CustomersHandle(req, up) == CustomersHandle(req.(httpMethod := ToUpper(req.httpMethod)), up)
  {
    ToUpperIdempotent(req.httpMethod);
  }

  /** GET, POST and OPTIONS do not look at the path below the context. */
  lemma {:induction false} CustomersPathOnlyForPutDelete(req: Request, up: Upstream, path: string)
    requires ToUpper(req.httpMethod) !in {"PUT", "DELETE"}
    ensures CustomersHandle(req, up) == CustomersHandle(req.(path := path), up)
  {
  }

  /** What each method answers when the token is present and the id, the body
      and the service call all succeed. */
  lemma {:induction false} CustomersSuccess(req: Request, up: Upstream, t: string)
    requires ExtractToken(req.authorization) == Some(t)
    ensures ToUpper(req.httpMethod) == "GET" && up.list(t).Returned? ==>
      CustomersHandle(req, up) == Exchange(SendJson(200, CustomerArray(up.list(t).value)), Some(ListCustomers(t)))
    ensures ToUpper(req.httpMethod) == "POST" && req.body.asCustomer.Returned? ==>
      var p := req.body.asCustomer.value;
      up.create(t, p.name, p.email).Returned? ==>
        CustomersHandle(req, up) ==
          Exchange(SendJson(201, CustomerObject(up.create(t, p.name, p.email).value)), Some(CreateCustomer(t, p.name, p.email)))
    ensures ToUpper(req.httpMethod) == "PUT" && ResolveId(req.path).Some? && req.body.asCustomer.Returned? ==>
      var p := req.body.asCustomer.value;
      var id := ResolveId(req.path).value;
      up.update(t, id, p.name, p.email).Returned? ==>
        CustomersHandle(req, up) ==
          Exchange(SendJson(200, CustomerObject(up.update(t, id, p.name, p.email).value)), Some(UpdateCustomer(t, id, p.name, p.email)))
    ensures ToUpper(req.httpMethod) == "DELETE" && ResolveId(req.path).Some? && up.delete(t, ResolveId(req.path).value).Returned? ==>
      CustomersHandle(req, up) == Exchange(NoContent(map[]), Some(DeleteCustomer(t, ResolveId(req.path).value)))
    ensures ToUpper(req.httpMethod) == "OPTIONS" ==>
      CustomersHandle(req, up) == Exchange(NoContent(OptionsHeaders), None)
  {
  }

  /** An authorised PUT to a resolvable path updates that id with that token. */
  lemma {:induction false} AuthorisedPutUpdates(req: Request, up: Upstream, t: string, n: int)
    requires req.httpMethod == "PUT" && req.authorization == Some(BearerPrefix + t)
    requires ResolveId(req.path) == Some(n) && req.body.asCustomer.Returned?
    ensures CustomersHandle(req, up).call ==
      Some(UpdateCustomer(t, n, req.body.asCustomer.value.name, req.body.asCustomer.value.email))
  {
    ExtractTokenOfBearer(t);
    ToUpperOfUpper("PUT");
  }

  /** An exception from the service or the body mapper answers 500 with its
      message, or `""` for a null message. */
  lemma {:induction false} CustomersServiceFailure(req: Request, up: Upstream, t: string, m: Option<string>)
    requires ExtractToken(req.authorization) == Some(t)
    ensures ToUpper(req.httpMethod) == "GET" && up.list(t) == Threw(m) ==>
      CustomersHandle(req, up).response == SendError(500, m)
    ensures (ToUpper(req.httpMethod) == "POST" ||
             (ToUpper(req.httpMethod) == "PUT" && ResolveId(req.path).Some?)) && req.body.asCustomer == Threw(m) ==>
      CustomersHandle(req, up) == Exchange(SendError(500, m), None)
    ensures ToUpper(req.httpMethod) == "DELETE" && ResolveId(req.path).Some? && up.delete(t, ResolveId(req.path).value) == Threw(m) ==>
      CustomersHandle(req, up).response == SendError(500, m)
    ensures (ToUpper(req.httpMethod) == "POST" && req.body.asCustomer.Returned? &&
             up.create(t, req.body.asCustomer.value.name, req.body.asCustomer.value.email) == Threw(m)) ==>
      CustomersHandle(req, up).response == SendError(500, m)
    ensures (ToUpper(req.httpMethod) == "PUT" && ResolveId(req.path).Some? && req.body.asCustomer.Returned? &&
             up.update(t, ResolveId(req.path).value, req.body.asCustomer.value.name, req.body.asCustomer.value.email) == Threw(m)) ==>
      CustomersHandle(req, up).response == SendError(500, m)
  {
  }

  // ---------------------------------------------------------------------
  // Static files

  /** The path after `/` is rewritten to `/index.html`. */
  function ServedPath(path: string): string
  {
    if path == "/" then "/index.html" else path
  }

  /** The class-path resource the static handler opens. */
  function ResourceName(path: string): string
  {
    "web" + ServedPath(path)
  }

  /** `StaticFileHandler.handle`. The class-path lookup and the platform's
      content-type guess are calls this model does not see: `lookup` and
      `guess`. */
  function StaticHandle(httpMethod: string, path: string,
                        lookup: string -> Option<seq<bv8>>, guess: string -> Option<string>): (r: Response)
    ensures !EqualsIgnoreCase(httpMethod, "GET") ==> r == MethodNotAllowed("GET")
    ensures r.status in {200, 404, 405}
    ensures EqualsIgnoreCase(httpMethod, "GET") ==>
      (r.status == 200 <==> lookup(ResourceName(path)).Some?)
    ensures EqualsIgnoreCase(httpMethod, "GET") && lookup(ResourceName(path)).None? ==> r == SendError(404, Some(NotFound))
    ensures r.status == 200 ==>
      r.body == Bytes(lookup(ResourceName(path)).value) &&
      r.headers == map["Content-Type" := ContentType(ServedPath(path), guess(ServedPath(path)))]
  {
    if !EqualsIgnoreCase(httpMethod, "GET") then MethodNotAllowed("GET")
    else
      var p := ServedPath(path);
      match lookup("web" + p)
      case None => SendError(404, Some(NotFound))
      case Some(bytes) => Response(200, map["Content-Type" := ContentType(p, guess(p))], Bytes(bytes))
  }

  /** The root serves `web/index.html` as HTML, whatever the guess says. */
  lemma {:induction false} StaticRoot(httpMethod: string, lookup: string -> Option<seq<bv8>>, guess: string -> Option<string>)
    requires EqualsIgnoreCase(httpMethod, "GET") && lookup("web/index.html").Some?
    ensures StaticHandle(httpMethod, "/", lookup, guess) ==
      Response(200, map["Content-Type" := "text/html; charset=utf-8"], Bytes(lookup("web/index.html").value))
  {
    assert ResourceName("/") == "web/index.html";
    IndexContentType(guess("/index.html"));
  }

  /** `/index.html` is HTML by the table. */
  lemma {:induction false} IndexContentType(guess: Option<string>)
    ensures ContentType("/index.html", guess) == "text/html; charset=utf-8"
  {
    assert GetExtension("/index.html") == ".html";
  }
}

=== FILE: javatext.dfy ===
/** The parts of `java.lang.String` and `java.lang.Long` that the gateway's
    request classification relies on, with Java's edge cases written out. */
module JavaText {
  import opened Wrappers
  import opened Decimal

  const MinLong: int := -0x8000_0000_0000_0000
  const MaxLong: int := 0x7FFF_FFFF_FFFF_FFFF

  /** The values of Java's signed 64-bit `long`. */
  predicate IsLong(n: int)
  {
    MinLong <= n <= MaxLong
  }

  /** `s.startsWith(prefix)`: case-sensitive, character by character. */
  predicate StartsWith(s: string, prefix: string)
  {
    |prefix| <= |s| && s[..|prefix|] == prefix
  }

  /** `s.indexOf(c)`: the first position of `c`, or -1. */
  function IndexOf(s: string, c: char): (r: int)
    ensures -1 <= r < |s|
    ensures r >= 0 ==> s[r] == c && forall j :: 0 <= j < r ==> s[j] != c
    ensures r < 0 ==> forall j :: 0 <= j < |s| ==> s[j] != c
  {
    if s == [] then -1
    else if s[0] == c then 0
    else
      var k := IndexOf(s[1..], c);
      if k < 0 then -1 else k + 1
  }

  /** `s.lastIndexOf(c)`: the last position of `c`, or -1. */
  function LastIndexOf(s: string, c: char): (r: int)
    ensures -1 <= r < |s|
    ensures r >= 0 ==> s[r] == c && c !in s[r + 1..]
    ensures r < 0 <==> c !in s
  {
    if s == [] then -1
    else if s[|s| - 1] == c then |s| - 1
    else
      assert s == s[..|s| - 1] + [s[|s| - 1]];
      LastIndexOf(s[..|s| - 1], c)
  }

  /** `Character.toUpperCase` restricted to ASCII letters. */
  function UpperChar(c: char): char
  {
    if 'a' <= c <= 'z' then (c as int - 32) as char else c
  }

  /** `s.toUpperCase()` on ASCII letters. */
  function ToUpper(s: string): (r: string)
    ensures |r| == |s|
    ensures forall i :: 0 <= i < |s| ==> r[i] == UpperChar(s[i])
  {
    if s == [] then [] else [UpperChar(s[0])] + ToUpper(s[1..])
  }

  /** `a.equalsIgnoreCase(b)` on ASCII letters. */
  predicate EqualsIgnoreCase(a: string, b: string)
  {
    ToUpper(a) == ToUpper(b)
  }

  /** Upper-casing twice is upper-casing once. */
  lemma {:induction false} ToUpperIdempotent(s: string)
    ensures ToUpper(ToUpper(s)) == ToUpper(s)
  {
  }

  /** A string without lower-case ASCII letters is its own upper-case form. */
  lemma {:induction false} ToUpperOfUpper(s: string)
    requires forall i :: 0 <= i < |s| ==> !('a' <= s[i] <= 'z')
    ensures ToUpper(s) == s
  {
  }

  /** Joining pieces with `sep` between them: the inverse of splitting. */
  function Join(parts: seq<string>, sep: char): string
    requires parts != []
  {
    if |parts| == 1 then parts[0] else parts[0] + [sep] + Join(parts[1..], sep)
  }

  /** Splitting at EVERY occurrence of `sep`, keeping every empty piece. */
  function SplitAll(s: string, sep: char): (parts: seq<string>)
    ensures parts != []
    decreases |s|
  {
    var i := IndexOf(s, sep);
    if i < 0 then [s] else [s[..i]] + SplitAll(s[i + 1..], sep)
  }

  /** No piece contains the separator. */
  lemma {:induction false} SplitAllPieces(s: string, sep: char)
    ensures forall k :: 0 <= k < |SplitAll(s, sep)| ==> sep !in SplitAll(s, sep)[k]
    decreases |s|
  {
    var i := IndexOf(s, sep);
    if i >= 0 {
      var rest := SplitAll(s[i + 1..], sep);
      SplitAllPieces(s[i + 1..], sep);
      assert SplitAll(s, sep) == [s[..i]] + rest;
      assert forall k :: 1 <= k < 1 + |rest| ==> ([s[..i]] + rest)[k] == rest[k - 1];
    }
  }

  /** The first `c` of `a + [c] + b` is the one after `a` when `a` has none. */
  lemma {:induction false} IndexOfAfter(a: string, c: char, b: string)
    requires c !in a
    ensures IndexOf(a + [c] + b, c) == |a|
  {
    if a != [] {
      assert (a + [c] + b)[1..] == a[1..] + [c] + b;
      IndexOfAfter(a[1..], c, b);
    }
  }

  /** Splitting `a + [sep] + b` when `a` has no `sep`: `a`, then the pieces of `b`. */
  lemma {:induction false} SplitAllCons(a: string, sep: char, b: string)
    requires sep !in a
    ensures SplitAll(a + [sep] + b, sep) == [a] + SplitAll(b, sep)
  {
    var s := a + [sep] + b;
    IndexOfAfter(a, sep, b);
    assert s[..|a|] == a;
    assert s[|a| + 1..] == b;
  }

  /** Where the first `sep` is at `i`, the first piece ends there. */
  lemma {:induction false} SplitAllAt(s: string, sep: char, i: nat)
    requires i < |s| && s[i] == sep && forall j :: 0 <= j < i ==> s[j] != sep
    ensures SplitAll(s, sep) == [s[..i]] + SplitAll(s[i + 1..], sep)
  {
    assert s[..i + 1][i] == sep;
    assert IndexOf(s, sep) == i;
  }

  /** Splitting a joined sequence gives the pieces back. */
  lemma {:induction false} SplitAllJoin(parts: seq<string>, sep: char)
    requires parts != []
    requires forall i :: 0 <= i < |parts| ==> sep !in parts[i]
    ensures SplitAll(Join(parts, sep), sep) == parts
  {
    if |parts| > 1 {
      var tail := Join(parts[1..], sep);
      assert Join(parts, sep) == parts[0] + [sep] + tail;
      SplitAllCons(parts[0], sep, tail);
      SplitAllJoin(parts[1..], sep);
      assert [parts[0]] + parts[1..] == parts;
    }
  }

  /** The empty pieces at the end removed: what a split with limit 0 discards. */
  function DropTrailingEmpty(parts: seq<string>): (r: seq<string>)
    ensures r <= parts
    ensures r == [] || r[|r| - 1] != ""
    ensures forall i :: |r| <= i < |parts| ==> parts[i] == ""
    decreases |parts|
  {
    if parts != [] && parts[|parts| - 1] == "" then DropTrailingEmpty(parts[..|parts| - 1]) else parts
  }

  /** `s.split(String.valueOf(sep))`: no occurrence gives `[s]` (so `""` gives
      `[""]`); otherwise the pieces between occurrences, leading empty piece
      kept, trailing empty pieces dropped. */
  function Split(s: string, sep: char): (parts: seq<string>)
    ensures forall i :: 0 <= i < |parts| ==> sep !in parts[i]
    ensures sep !in s ==> parts == [s]
    ensures sep in s ==> parts <= SplitAll(s, sep) && (parts == [] || parts[|parts| - 1] != "")
    ensures sep in s ==> forall i :: |parts| <= i < |SplitAll(s, sep)| ==> SplitAll(s, sep)[i] == ""
  {
    if sep !in s then [s]
    else
      SplitAllPieces(s, sep);
      DropTrailingEmpty(SplitAll(s, sep))
  }

  /** Pieces that end in a non-empty one survive the split unchanged. */
  lemma {:induction false} SplitOfJoin(parts: seq<string>, sep: char)
    requires parts != [] && parts[|parts| - 1] != ""
    requires forall i :: 0 <= i < |parts| ==> sep !in parts[i]
    ensures Split(Join(parts, sep), sep) == parts
  {
    if |parts| == 1 {
      assert Join(parts, sep) == parts[0];
    }
    SplitAllJoin(parts, sep);
  }

  /** A leading `+` or `-`. */
  predicate HasSign(s: string)
  {
    |s| > 0 && (s[0] == '-' || s[0] == '+')
  }

  /** The text after an optional sign. */
  function Magnitude(s: string): string
  {
    if HasSign(s) then s[1..] else s
  }

  /** `Long.parseLong(s)`: an optional sign and at least one digit whose value
      fits in 64 bits; `None` where Java throws `NumberFormatException`. */
  function ParseLong(s: string): (r: Option<int>)
    ensures r.Some? ==> IsLong(r.value)
    ensures r.Some? ==> Magnitude(s) != [] && AllDigits(Magnitude(s))
    ensures r.Some? ==> (r.value < 0 ==> s[0] == '-')
  {
    var ds := Magnitude(s);
    if ds == [] || !AllDigits(ds) then None
    else
      var v: int := if s[0] == '-' then -(DecimalValue(ds) as int) else DecimalValue(ds);
      if IsLong(v) then Some(v) else None
  }

  /** `Long.parseLong(Long.toString(n)) == n`, and the decimal text of any
      integer outside 64 bits is rejected. */
  lemma {:induction false} ParseLongOfDecimal(n: int)
    ensures ParseLong(IntToString(n)) == if IsLong(n) then Some(n) else None
  {
    var s := IntToString(n);
    if n < 0 {
      NatToStringValue(-n);
      assert Magnitude(s) == NatToString(-n);
    } else {
      NatToStringValue(n);
      assert Magnitude(s) == NatToString(n);
    }
  }

  /** A digit string's value, read the way `parseLong` does. */
  lemma {:induction false} ParseLongOfDigits(ds: string)
    requires ds != [] && AllDigits(ds)
    ensures ParseLong(ds) == if DecimalValue(ds) <= MaxLong then Some(DecimalValue(ds)) else None
    ensures ParseLong("+" + ds) == ParseLong(ds)
    ensures ParseLong("-" + ds) == if DecimalValue(ds) <= -MinLong then Some(-(DecimalValue(ds) as int)) else None
  {
    assert Magnitude("+" + ds) == ds;
    assert Magnitude("-" + ds) == ds;
  }

  /** A sign alone, the empty string, and anything with a non-digit are rejected. */
  lemma {:induction false} ParseLongRejects(s: string, i: nat)
    requires i < |s| && !IsDigit(s[i]) && !(i == 0 && HasSign(s))
    ensures ParseLong(s) == None
    ensures ParseLong("") == None && ParseLong("+") == None && ParseLong("-") == None
  {
    if HasSign(s) {
      assert Magnitude(s)[i - 1] == s[i];
    }
  }
}

=== FILE: jstext.dfy ===
/** The JavaScript semantics the browser client leans on: parsed JSON values,
    truthiness (`if (x)`, `a || b`), member access, string conversion (template
    literals, `new Error(x)`) and `String.prototype.trim`. Numbers are exact
    integers here. */
module JsText {
  import opened Decimal

  /** A value as `JSON.parse` produces it, plus `undefined` for a missing member. */
  datatype JsValue =
    | Undefined
    | Null
    | Bool(b: bool)
    | Number(n: int)
    | Str(s: string)
    | Arr(items: seq<JsValue>)
    | Obj(members: map<string, JsValue>)

  /** `null` or `undefined`: reading a member of one throws a TypeError. */
  predicate Nullish(v: JsValue)
  {
    v.Undefined? || v.Null?
  }

  /** JavaScript's truthiness. */
  predicate Truthy(v: JsValue)
  {
    match v
    case Undefined => false
    case Null => false
    case Bool(b) => b
    case Number(n) => n != 0
    case Str(s) => s != ""
    case Arr(_) => true
    case Obj(_) => true
  }

  /** `v.key` for a value that is not nullish: an object's own member, or
      `undefined` (no parsed value has an own `error`, `token`, `id`, `name`
      or `email` other than an object's). */
  function Member(v: JsValue, key: string): (r: JsValue)
    requires !Nullish(v)
    ensures !v.Obj? ==> r == Undefined
    ensures v.Obj? ==> r == if key in v.members then v.members[key] else Undefined
  {
    match v
    case Obj(m) => if key in m then m[key] else Undefined
    case _ => Undefined
  }

  /** `String(v)`, which is also what a template literal writes. */
  function ToJsString(v: JsValue): string
    decreases v, 1
  {
    match v
    case Undefined => "undefined"
    case Null => "null"
    case Bool(b) => if b then "true" else "false"
    case Number(n) => IntToString(n)
    case Str(s) => s
    case Obj(_) => "[object Object]"
    case Arr(items) => ElementsText(items, v)
  }

  /** `Array.prototype.join(",")`: null and undefined elements print as `""`. */
  function ElementsText(items: seq<JsValue>, ghost whole: JsValue): string
    requires forall i :: 0 <= i < |items| ==> items[i] < whole
    decreases whole, 0, |items|
  {
    if items == [] then ""
    else
      var first := if Nullish(items[0]) then "" else ToJsString(items[0]);
      if |items| == 1 then first else first + "," + ElementsText(items[1..], whole)
  }

  /** The characters `trim` removes: ECMAScript's WhiteSpace and LineTerminator. */
  predicate IsJsSpace(c: char)
  {
    var k := c as int;
    k == 0x09 || k == 0x0A || k == 0x0B || k == 0x0C || k == 0x0D || k == 0x20 ||
    k == 0xA0 || k == 0x1680 || (0x2000 <= k <= 0x200A) || k == 0x2028 || k == 0x2029 ||
    k == 0x202F || k == 0x205F || k == 0x3000 || k == 0xFEFF
  }

  predicate AllJsSpace(s: string)
  {
    forall i :: 0 <= i < |s| ==> IsJsSpace(s[i])
  }

  /** The string without its leading white space. */
  function TrimStart(s: string): (r: string)
    ensures |r| <= |s| && r == s[|s| - |r|..]
    ensures AllJsSpace(s[..|s| - |r|])
    ensures r == [] || !IsJsSpace(r[0])
  {
    if s != [] && IsJsSpace(s[0]) then TrimStart(s[1..]) else s
  }

  /** The string without its trailing white space. */
  function TrimEnd(s: string): (r: string)
    ensures r <= s
    ensures AllJsSpace(s[|r|..])
    ensures r == [] || !IsJsSpace(r[|r| - 1])
  {
    if s != [] && IsJsSpace(s[|s| - 1]) then TrimEnd(s[..|s| - 1]) else s
  }

  /** `s.trim()`. */
  function Trim(s: string): (r: string)
  {
    TrimEnd(TrimStart(s))
  }

  /** `trim` cuts white space, and only white space, from both ends: the
      result is a slice of `s` with only white space around it. */
  lemma {:induction false} TrimIsSlice(s: string)
    ensures exists i, j :: (0 <= i <= j <= |s| && Trim(s) == s[i..j] &&
                            AllJsSpace(s[..i]) && AllJsSpace(s[j..]))
  {
    var t := TrimStart(s);
    var i := |s| - |t|;
    var r := TrimEnd(t);
    var j := i + |r|;
    assert Trim(s) == s[i..j] by {
      assert t == s[i..] && r == t[..|r|];
    }
    assert AllJsSpace(s[j..]) by {
      assert s[j..] == t[|r|..];
    }
    assert AllJsSpace(s[..i]);
  }

  /** What `trim` returns neither starts nor ends with white space. */
  lemma {:induction false} TrimEnds(s: string)
    ensures Trim(s) == [] || (!IsJsSpace(Trim(s)[0]) && !IsJsSpace(Trim(s)[|Trim(s)| - 1]))
  {
    var t := TrimStart(s);
    var r := TrimEnd(t);
    if r != [] {
      assert r[0] == t[0];
    }
  }

  /** A string without white space at either end is its own trim. */
  lemma {:induction false} TrimOfTrimmed(s: string)
    requires s != [] && !IsJsSpace(s[0]) && !IsJsSpace(s[|s| - 1])
    ensures Trim(s) == s && !AllJsSpace(s)
  {
    assert TrimStart(s) == s;
  }

  /** A string trims to nothing exactly when it is all white space. */
  lemma {:induction false} TrimEmpty(s: string)
    ensures Trim(s) == [] <==> AllJsSpace(s)
  {
    var t := TrimStart(s);
    if Trim(s) == [] {
      assert t == [];
      assert s[..|s|] == s;
    }
  }
}

=== FILE: webclient.dfy ===
/** The browser client (`src/main/resources/web/app.js`): the session's
    `authToken`, the requests `fetchWithAuth` shapes and how it settles a
    response, the login and logout handlers, the customer form's submit, the
    delete action and the customer table. The DOM, `fetch` itself and the
    server are outside the model: a server enters as a function from the
    request to its reply. */
module WebClient {
  import opened Wrappers
  import opened Decimal
  import opened JsText

  // ---------------------------------------------------------------------
  // Plain objects used as header maps

  /** An object with string members, in insertion order. */
  type Members = seq<(string, string)>

  /** No name occurs twice, as in any JavaScript object. */
  predicate DistinctKeys(h: Members)
  {
    forall i, j :: 0 <= i < j < |h| ==> h[i].0 != h[j].0
  }

  /** `h[key]`, with `None` for `undefined`. */
  function Lookup(h: Members, key: string): (r: Option<string>)
    ensures r.Some? ==> (key, r.value) in h
    ensures r.None? ==> forall i :: 0 <= i < |h| ==> h[i].0 != key
  {
    if h == [] then None
    else if h[0].0 == key then Some(h[0].1)
    else Lookup(h[1..], key)
  }

  /** `h[key] = value`: an existing member is overwritten where it stands, a
      new one goes last. */
  function Assign(h: Members, key: string, value: string): (r: Members)
    ensures Lookup(r, key) == Some(value)
    ensures Lookup(h, key).Some? ==> |r| == |h| && forall i :: 0 <= i < |h| ==> r[i].0 == h[i].0
    ensures Lookup(h, key).None? ==> r == h + [(key, value)]
  {
    if h == [] then [(key, value)]
    else if h[0].0 == key then [(key, value)] + h[1..]
    else [h[0]] + Assign(h[1..], key, value)
  }

  /** Assigning one member leaves every other member as it was. */
  lemma {:induction false} AssignKeepsOthers(h: Members, key: string, value: string, k: string)
    requires k != key
    ensures Lookup(Assign(h, key, value), k) == Lookup(h, k)
  {
    if h != [] && h[0].0 != key {
      AssignKeepsOthers(h[1..], key, value, k);
    }
  }

  /** After `h[key] = value`, every name reads as before except `key`. */
  lemma {:induction false} AssignLookup(h: Members, key: string, value: string)
    ensures forall k :: Lookup(Assign(h, key, value), k) == if k == key then Some(value) else Lookup(h, k)
  {
    forall k | k != key
      ensures Lookup(Assign(h, key, value), k) == Lookup(h, k)
    {
      AssignKeepsOthers(h, key, value, k);
    }
  }

  /** Assigning keeps the names distinct. */
  lemma {:induction false} AssignKeepsDistinct(h: Members, key: string, value: string)
    requires DistinctKeys(h)
    ensures DistinctKeys(Assign(h, key, value))
  {
    var r := Assign(h, key, value);
    if Lookup(h, key).None? {
      assert r == h + [(key, value)];
    }
  }

  /** A string-valued member counts as set only when it is truthy. */
  predicate IsSet(v: Option<string>)
  {
    v.Some? && v.value != ""
  }

  // ---------------------------------------------------------------------
  // Requests and replies

  /** A request body: the text `JSON.stringify` writes for an object (never
      empty), or a literal string. */
  datatype RequestBody = JsonObject(members: Members) | Text(text: string)

  predicate BodyIsSet(b: Option<RequestBody>)
  {
    b.Some? && (b.value.JsonObject? || b.value.text != "")
  }

  /** The `options` argument of `fetchWithAuth`. */
  datatype Options = Options(verb: Option<string>, headers: Option<Members>, body: Option<RequestBody>)

  /** What `fetch` is handed. */
  datatype Request = Request(url: string, verb: string, headers: Members, body: Option<RequestBody>)

  /** A reply's body after `response.json()`: it does not parse, or it does. */
  datatype ReplyBody = NotJson | Json(value: JsValue)

  datatype Reply = Reply(status: int, statusText: string, body: ReplyBody)

  /** `response.ok`. */
  predicate Ok(status: int)
  {
    200 <= status <= 299
  }

  /** Why a promise was rejected: an `Error` with our message, or an error the
      engine raises itself (a `SyntaxError` from parsing, a `TypeError` from
      reading a member of `null`) whose text the engine chooses. */
  datatype Failure = ErrorMessage(message: string) | EngineError

  datatype Completion = Resolved(value: JsValue) | Rejected(failure: Failure)

  const JsonType := "application/json"

  /** The message `fetchWithAuth` throws for a reply that is not ok:
      `data.error` when the body parses to something whose `error` is truthy,
      otherwise the status text. */
  function FailureMessage(reply: Reply): string
  {
    match reply.body
    case NotJson => reply.statusText
    case Json(v) =>
      if Nullish(v) then reply.statusText  // reading `.error` throws; the catch ignores it
      else if Truthy(Member(v, "error")) then ToJsString(Member(v, "error"))
      else reply.statusText
  }

  /** How `fetchWithAuth` settles once the reply is in. */
  function Settle(reply: Reply): (c: Completion)
    ensures !Ok(reply.status) ==> c == Rejected(ErrorMessage(FailureMessage(reply)))
    ensures Ok(reply.status) && reply.status == 204 ==> c == Resolved(Null)
    ensures c.Resolved? <==> Ok(reply.status) && (reply.status == 204 || reply.body.Json?)
    ensures c.Resolved? && reply.status != 204 ==> c.value == reply.body.value
    ensures Ok(reply.status) && reply.status != 204 && reply.body.NotJson? ==> c == Rejected(EngineError)
  {
    if !Ok(reply.status) then Rejected(ErrorMessage(FailureMessage(reply)))
    else if reply.status == 204 then Resolved(Null)
    else match reply.body
      case NotJson => Rejected(EngineError)
      case Json(v) => Resolved(v)
  }

  /** The message of a failed reply: the server's truthy `error` text, or the
      status text when the body has none, does not parse or is `null`. */
  lemma {:induction false} FailureMessageChoice(status: int, statusText: string, e: string)
    ensures FailureMessage(Reply(status, statusText, Json(Obj(map["error" := Str(e)])))) ==
      if e != "" then e else statusText
    ensures FailureMessage(Reply(status, statusText, NotJson)) == statusText
    ensures FailureMessage(Reply(status, statusText, Json(Null))) == statusText
    ensures FailureMessage(Reply(status, statusText, Json(Obj(map[])))) == statusText
  {
  }

  // ---------------------------------------------------------------------
  // Form, table rows and the requests the page issues

  /** The customer form's three inputs. */
  datatype Form = Form(id: string, name: string, email: string)

  /** What submitting the customer form does. */
  datatype Submission = Invalid(alert: string) | Save(url: string, options: Options)

  const CustomersUrl := "/api/customers"
  const CustomerUrlPrefix := "/api/customers/"
  const ValidationAlert := "Informe nome e e-mail válidos."
  const LoginFailedAlert := "Falha no login"

  /** The customer form's submit handler, up to the request it would issue. */
  function SubmitCustomer(form: Form): (s: Submission)
    ensures s.Invalid? <==> AllJsSpace(form.name) || AllJsSpace(form.email)
    ensures s.Invalid? ==> s.alert == ValidationAlert
    ensures s.Save? ==>
      s.options == Options(Some(if form.id != "" then "PUT" else "POST"), None,
                           Some(JsonObject([("name", Trim(form.name)), ("email", Trim(form.email))])))
    ensures s.Save? ==> s.url == if form.id != "" then CustomerUrlPrefix + form.id else CustomersUrl
  {
    var name := Trim(form.name);
    var email := Trim(form.email);
    TrimEmpty(form.name);
    TrimEmpty(form.email);
    if name == "" || email == "" then Invalid(ValidationAlert)
    else
      var payload := JsonObject([("name", name), ("email", email)]);
      var verb := if form.id != "" then "PUT" else "POST";
      var url := if form.id != "" then CustomerUrlPrefix + form.id else CustomersUrl;
      Save(url, Options(Some(verb), None, Some(payload)))
  }

  /** What assigning a value to an input's `value` stores: `null` becomes `""`. */
  function InputText(v: JsValue): string
  {
    if v.Null? then "" else ToJsString(v)
  }

  /** `startEdit(customer)`: the form shows the customer's id, name and email. */
  function StartEdit(customer: JsValue): (f: Form)
    requires !Nullish(customer)
    ensures f.id == InputText(Member(customer, "id"))
    ensures f.name == InputText(Member(customer, "name")) && f.email == InputText(Member(customer, "email"))
  {
    Form(InputText(Member(customer, "id")), InputText(Member(customer, "name")), InputText(Member(customer, "email")))
  }

  /** Opening a stored customer for editing and saving it unchanged puts the
      same name and email back to that customer's URL. */
  lemma {:induction false} EditResubmitsCustomer(customer: JsValue, n: int, name: string, email: string)
    requires !Nullish(customer) && Member(customer, "id") == Number(n)
    requires Member(customer, "name") == Str(name) && Member(customer, "email") == Str(email)
    requires name != [] && !IsJsSpace(name[0]) && !IsJsSpace(name[|name| - 1])
    requires email != [] && !IsJsSpace(email[0]) && !IsJsSpace(email[|email| - 1])
    ensures SubmitCustomer(StartEdit(customer)) ==
      Save(CustomerUrlPrefix + IntToString(n), Options(Some("PUT"), None, Some(JsonObject([("name", name), ("email", email)]))))
  {
    TrimOfTrimmed(name);
    TrimOfTrimmed(email);
  }

  /** The request `deleteCustomer(id)` issues once the user confirms, if they do. */
  function DeleteCustomer(id: JsValue, confirmed: bool): (r: Option<(string, Options)>)
    ensures r.Some? <==> confirmed
    ensures r.Some? ==> r.value == (CustomerUrlPrefix + ToJsString(id), Options(Some("DELETE"), None, None))
  {
    if !confirmed then None else Some((CustomerUrlPrefix + ToJsString(id), Options(Some("DELETE"), None, None)))
  }

  /** The value of the last entry named `k`, or `None` when no entry is. */
  function LastValue(entries: Members, k: string): Option<string>
  {
    if entries == [] then None
    else if entries[|entries| - 1].0 == k then Some(entries[|entries| - 1].1)
    else LastValue(entries[..|entries| - 1], k)
  }

  /** A declined confirmation sends nothing, and distinct numeric ids are sent
      to distinct URLs, so a delete never targets another customer. */
  lemma {:induction false} DeleteTargetsOneCustomer(m: int, n: int, id: JsValue)
    ensures DeleteCustomer(id, false) == None
    ensures DeleteCustomer(Number(m), true).value.0 == DeleteCustomer(Number(n), true).value.0 ==> m == n
  {
    var a := DeleteCustomer(Number(m), true).value.0;
    var b := DeleteCustomer(Number(n), true).value.0;
    if a == b {
      assert IntToString(m) == a[|CustomerUrlPrefix|..];
      assert IntToString(n) == b[|CustomerUrlPrefix|..];
      IntToStringInjective(m, n);
    }
  }

  /** `Object.fromEntries(entries)`: every name of `entries` once, holding the
      value of its last entry (at the place where the name first occurred),
      and no other name. */
  function FromEntries(entries: Members): (h: Members)
    ensures DistinctKeys(h)
    ensures forall k :: Lookup(h, k) == LastValue(entries, k)
    decreases |entries|
  {
    if entries == [] then []
    else
      var last := entries[|entries| - 1];
      var front := entries[..|entries| - 1];
      AssignKeepsDistinct(FromEntries(front), last.0, last.1);
      AssignLookup(FromEntries(front), last.0, last.1);
      Assign(FromEntries(front), last.0, last.1)
  }

  /** The request the login form sends: plain `fetch`, never an `Authorization` header. */
  function LoginRequest(entries: Members): (r: Request)
    ensures r.url == "/api/login" && r.verb == "POST"
    ensures Lookup(r.headers, "Authorization") == None
    ensures Lookup(r.headers, "Content-Type") == Some(JsonType)
    ensures r.headers == [("Content-Type", JsonType)]
    ensures r.body == Some(JsonObject(FromEntries(entries)))
  {
    Request("/api/login", "POST", [("Content-Type", JsonType)], Some(JsonObject(FromEntries(entries))))
  }

  /** What the login form's submit handler ends in. */
  datatype LoginOutcome = LoggedIn | LoginFailed(failure: Failure)

  /** The failure a login reply that is not ok is reported with:
      `errorData.error || 'Falha no login'`, where a body that does not parse
      reads as `{}` and a `null` body makes the member read throw. */
  function LoginFailure(reply: Reply): Failure
  {
    match reply.body
    case NotJson => ErrorMessage(LoginFailedAlert)
    case Json(v) =>
      if Nullish(v) then EngineError
      else if Truthy(Member(v, "error")) then ErrorMessage(ToJsString(Member(v, "error")))
      else ErrorMessage(LoginFailedAlert)
  }

  /** A gateway's `{"error": e}` is shown as `e`, an empty one as the fallback text. */
  lemma {:induction false} LoginFailureChoice(status: int, statusText: string, e: string)
    ensures LoginFailure(Reply(status, statusText, Json(Obj(map["error" := Str(e)])))) ==
      ErrorMessage(if e != "" then e else LoginFailedAlert)
    ensures LoginFailure(Reply(status, statusText, NotJson)) == ErrorMessage(LoginFailedAlert)
  {
  }

  /** A row of the customer table. */
  datatype Row =
    | Placeholder
    | CustomerRow(customer: JsValue, id: string, name: string, email: string)

  /** The row one customer gets: its id, name and email as the template writes them. */
  function RowFor(customer: JsValue): (r: Row)
    requires !Nullish(customer)
    ensures r.CustomerRow? && r.customer == customer
    ensures r.id == ToJsString(Member(customer, "id"))
    ensures r.name == ToJsString(Member(customer, "name")) && r.email == ToJsString(Member(customer, "email"))
  {
    CustomerRow(customer, ToJsString(Member(customer, "id")), ToJsString(Member(customer, "name")),
                ToJsString(Member(customer, "email")))
  }

  /** What a parsed customer object's row shows: a numeric id as its decimal
      text, a string member as itself, `null` as `null` and a missing member as
      `undefined`, as the template writes them. */
  lemma {:induction false} RowShowsMembers(m: map<string, JsValue>, id: int, name: string, email: string)
    ensures "id" in m && m["id"] == Number(id) ==> RowFor(Obj(m)).id == IntToString(id)
    ensures "name" in m && m["name"] == Str(name) ==> RowFor(Obj(m)).name == name
    ensures "email" in m && m["email"] == Str(email) ==> RowFor(Obj(m)).email == email
    ensures "name" in m && m["name"] == Null ==> RowFor(Obj(m)).name == "null"
    ensures "name" !in m ==> RowFor(Obj(m)).name == "undefined"
  {
  }

  /** `customers.length === 0`. */
  predicate LengthIsZero(v: JsValue)
  {
    match v
    case Arr(items) => |items| == 0
    case Str(s) => |s| == 0
    case Obj(m) => "length" in m && m["length"] == Number(0)
    case _ => false
  }

  /** The first item whose member read throws, or the number of items. */
  function FirstNullish(items: seq<JsValue>): (k: nat)
    ensures k <= |items|
    ensures forall i :: 0 <= i < k ==> !Nullish(items[i])
    ensures k < |items| ==> Nullish(items[k])
  {
    if items == [] then 0
    else if Nullish(items[0]) then 0
    else 1 + FirstNullish(items[1..])
  }

  // ---------------------------------------------------------------------
  // The page's state

  /** The module-level `authToken`: `null` until a login succeeds. */
  class Session {
    var authToken: JsValue

    constructor ()
      ensures authToken == Null
    {
      authToken := Null;
    }

    /** `fetchWithAuth(url, options)`: a copy of the caller's headers, with
        `Authorization: Bearer <authToken>` when the token is truthy and
        `Content-Type: application/json` when there is a body and the caller
        set no truthy `Content-Type`; then the reply settled. */
    method FetchWithAuth(url: string, options: Options, server: Request -> Reply)
      returns (req: Request, result: Completion)
      ensures req.url == url && req.verb == options.verb.GetOr("GET") && req.body == options.body
      ensures Lookup(req.headers, "Authorization") ==
        if Truthy(authToken) then Some("Bearer " + ToJsString(authToken))
        else Lookup(options.headers.GetOr([]), "Authorization")
      ensures Lookup(req.headers, "Content-Type") ==
        if BodyIsSet(options.body) && !IsSet(Lookup(options.headers.GetOr([]), "Content-Type")) then Some(JsonType)
        else Lookup(options.headers.GetOr([]), "Content-Type")
      ensures forall k :: k != "Authorization" && k != "Content-Type" ==>
        Lookup(req.headers, k) == Lookup(options.headers.GetOr([]), k)
      ensures DistinctKeys(options.headers.GetOr([])) ==> DistinctKeys(req.headers)
      ensures result == Settle(server(req))
    {
      var given := options.headers.GetOr([]);
      var headers := given;
      if Truthy(authToken) {
        headers := Assign(given, "Authorization", "Bearer " + ToJsString(authToken));
        AssignKeepsOthers(given, "Authorization", "Bearer " + ToJsString(authToken), "Content-Type");
        forall k | k != "Authorization"
          ensures Lookup(headers, k) == Lookup(given, k)
        {
          AssignKeepsOthers(given, "Authorization", "Bearer " + ToJsString(authToken), k);
        }
        if DistinctKeys(given) {
          AssignKeepsDistinct(given, "Authorization", "Bearer " + ToJsString(authToken));
        }
      }
      if BodyIsSet(options.body) && !IsSet(Lookup(headers, "Content-Type")) {
        var before := headers;
        headers := Assign(before, "Content-Type", JsonType);
        forall k | k != "Content-Type"
          ensures Lookup(headers, k) == Lookup(before, k)
        {
          AssignKeepsOthers(before, "Content-Type", JsonType, k);
        }
        if DistinctKeys(before) {
          AssignKeepsDistinct(before, "Content-Type", JsonType);
        }
      }
      req := Request(url, options.verb.GetOr("GET"), headers, options.body);
      result := Settle(server(req));
    }

    /** The login form's submit handler: a reply that is ok and parses to
        something that is not `null` installs its `token` member, whatever it
        is; every other reply leaves the token alone and reports a failure. */
    method Login(entries: Members, server: Request -> Reply) returns (req: Request, outcome: LoginOutcome)
      modifies this
      ensures req == LoginRequest(entries)
      ensures outcome.LoggedIn? <==> Ok(server(req).status) && server(req).body.Json? && !Nullish(server(req).body.value)
      ensures outcome.LoggedIn? ==> authToken == Member(server(req).body.value, "token")
      ensures outcome.LoginFailed? ==> authToken == old(authToken)
      ensures !Ok(server(req).status) ==> outcome == LoginFailed(LoginFailure(server(req)))
      ensures Ok(server(req).status) && outcome.LoginFailed? ==> outcome.failure == EngineError
    {
      req := LoginRequest(entries);
      var reply := server(req);
      if !Ok(reply.status) {
        outcome := LoginFailed(LoginFailure(reply));
      } else if reply.body.NotJson? || Nullish(reply.body.value) {
        outcome := LoginFailed(EngineError);
      } else {
        authToken := Member(reply.body.value, "token");
        outcome := LoggedIn;
      }
    }

    /** The logout button: the token is dropped. */
    method Logout()
      modifies this
      ensures authToken == Null
    {
      authToken := Null;
    }
  }

  /** The customer table's body. */
  class CustomerTable {
    var rows: seq<Row>

    constructor ()
      ensures rows == []
    {
      rows := [];
    }

    /** `renderCustomers(customers)`: the table is cleared; a falsy or empty
        list gets the one placeholder row; a list gets one row per customer in
        order, until an item that is `null` makes the member read throw; any
        other value throws before a row is added. */
    method Render(customers: JsValue) returns (completed: bool)
      modifies this
      ensures !Truthy(customers) || LengthIsZero(customers) ==> rows == [Placeholder] && completed
      ensures Truthy(customers) && !LengthIsZero(customers) && !customers.Arr? ==> rows == [] && !completed
      ensures Truthy(customers) && !LengthIsZero(customers) && customers.Arr? ==>
        var items := customers.items;
        && |rows| == FirstNullish(items)
        && (forall i :: 0 <= i < |rows| ==> rows[i] == RowFor(items[i]))
        && (completed <==> FirstNullish(items) == |items|)
    {
      rows := [];
      if !Truthy(customers) || LengthIsZero(customers) {
        rows := rows + [Placeholder];
        return true;
      }
      if !customers.Arr? {
        return false;
      }
      var items := customers.items;
      var i := 0;
      while i < |items|
        invariant 0 <= i <= |items|
        invariant i <= FirstNullish(items)
        invariant |rows| == i
        invariant forall j :: 0 <= j < i ==> rows[j] == RowFor(items[j])
      {
        if Nullish(items[i]) {
          return false;
        }
        rows := rows + [RowFor(items[i])];
        i := i + 1;
      }
      return true;
    }
  }
}

=== FILE: wrappers.dfy ===
/** Optional values: Java's nullable references and absent fields. */
module Wrappers {

  datatype Option<+T> = None | Some(value: T) {

    /** The value, or `default` when there is none (`x == null ? default : x`). */
    function GetOr(default: T): T
    {
      match this
      case Some(v) => v
      case None => default
    }
  }
}
